=== FILE: README.md ===
# fdcount — a Dafny model of the Munin open-file-descriptor plugin

`fdcount.py` is a Munin plugin. On each run it does the following:

- It finds the processes whose executable is the configured target. By default it compares the executable's file name; in strict mode it compares the full path.
- It describes each process by its normalised command line, prefixed by its pid when the plugin tracks processes by pid.
- It stores each process under a label derived from that text.
- It merges these labels into the labels saved by earlier runs and saves the result.
- It answers Munin:
  - for a fetch: one value line per label, with the current descriptor count for processes seen in this run and `U` for labels that have vanished;
  - for `config`: the graph header and two lines per saved label.

This project models that logic as pure Dafny functions and proves what the plugin promises about it.

The modules follow the program:

| module | models |
|---|---|
| `Wrappers` | `Option`, `Result` and map lookup |
| `Text` | Python's whitespace class, `str(n)` for non-negative integers, `sep.join` |
| `Ordering` | code-point order on strings, the order `json.dump(..., sort_keys=True)` writes keys in |
| `Dict` | a Python `dict` as an association list with distinct keys. It keeps insertion order and has the map it denotes (`ToMap`), item assignment (`Put`), `update` (`Update`) and key sorting (`SortByKey`) |
| `Matcher` | `is_relevant` and `find_processes` |
| `CommandLine` | `command_line` |
| `Observation` | the `Process` tuple, the descriptive text of a process, and the loop that builds `new_labels` |
| `State` | the state file as read back, the merge of old and new labels, and `munin_state_write` |
| `Report` | `count_fds`, the fetch values and the `config` lines |
| `Plugin` | `munin_print` and `main`, plus runs over a series of invocations |

All operating-system reads are inputs:

- the pids listed under `/proc`, in listing order;
- the targets of the `exe` links that can be read;
- the contents of the `cmdline` files that can be read;
- the number of entries in each `fd` directory that can be listed.

A missing entry means the read raised, so the source takes its error branch. The label function (`label`, an MD5 digest) is a parameter, `labelOf`. The model assumes nothing about it, except that one lemma (`Observation.TrackedProcessesAllKept`) assumes no two distinct texts of the same run share a label.

Three behaviours of the code are worth stating:

- **Merge order.** The merged state keeps the order of the saved labels and appends the new labels in observation order (`old_labels.copy().update(new_labels)`).
- **When the state is saved.** The state is saved before anything is printed, and before an invalid action is rejected. `main` rejects invalid arguments before any of this, so a usage error saves nothing.
- **Unusable state files.** Three cases read as "no history": an unreadable file, a file that is not JSON, and a JSON object without a `labels` member. JSON whose top level, or whose `labels` member, is not an object makes the run raise. See Findings.

## Model

| member | source | states |
|---|---|---|
| Matcher.Basename | fdcount.py:88-89 | the file name of a path contains no `/`, ends the path, and is the whole path or preceded by a `/` |
| Matcher.BasenameIs | fdcount.py:88-90 | a path's file name equals the target exactly when the target is slash-free and is either the whole path or what follows a `/` at its end |
| Matcher.IsRelevant | fdcount.py:79-90 | an unreadable `exe` link never matches; strict mode matches exactly when the full path is the target; loose mode matches exactly when the target is the path's final slash-free component |
| Matcher.FindProcesses | fdcount.py:65-76 | a pid is yielded exactly when it is listed and relevant; no more pids are yielded than listed |
| Matcher.FindProcessesAppend | fdcount.py:70-76 | pids are yielded in listing order: matching a concatenated listing is concatenating the matches of its parts |
| CommandLine.ReplaceNul | fdcount.py:129 | replacing NUL keeps the length, turns each NUL into a space and leaves every other character as it was |
| CommandLine.StripIsTrim | fdcount.py:129 | `strip()` returns a contiguous slice with only whitespace before and after it, and the slice neither starts nor ends with whitespace |
| CommandLine.Collapse | fdcount.py:130 | collapsing whitespace keeps an empty text empty and does not lengthen a text; whitespace survives only as single spaces, never two in a row; whether the text starts or ends with whitespace is unchanged |
| CommandLine.CollapseAddsOnlySpaces | fdcount.py:130 | collapsing introduces no character except a space |
| CommandLine.StripKeepsWords | fdcount.py:129 | stripping keeps the whitespace-separated words |
| CommandLine.CollapseKeepsWords | fdcount.py:130 | collapsing keeps the whitespace-separated words |
| CommandLine.CanonicalIsJoinedWords | fdcount.py:129-130 | a text whose only whitespace is single inner spaces is its words joined by one space |
| CommandLine.NormalisedIsJoinedWords | fdcount.py:129-130 | strip-then-collapse gives a canonical text equal to the words joined by one space, and adds no NUL |
| CommandLine.CollapseOfTrimmedIsCanonical | fdcount.py:129-130 | collapsing a text with no whitespace at either end gives a canonical text |
| CommandLine.CommandLine | fdcount.py:121-130 | an unreadable cmdline gives `Unknown command; pid N`; otherwise the text is canonical, contains no NUL, and is the arguments' words joined by single spaces |
| Text.Decimal | fdcount.py:128 | a pid is written as a non-empty string of digits without a leading zero |
| Text.DecimalRoundTrip | fdcount.py:142 | reading a pid's decimal text back gives the pid |
| Text.DecimalInjective | fdcount.py:142 | distinct pids have distinct decimal texts |
| Text.DigitPrefixOfNumeral | fdcount.py:142 | in a numeral followed by a non-digit, the numeral is the whole leading run of digits |
| Observation.Describe | fdcount.py:140-142 | with pid tracking, the text opens with the pid's decimal numeral (no leading zero, so the text is exactly `str(pid)`, `: ` and the command), and the pid and the normalised command line can both be read back from it; without tracking, the text is the normalised command line |
| Observation.PidPrefixReadBack | fdcount.py:142 | the leading digit run of a `<pid>: <text>` string is exactly the pid's numeral, and the string reads back into exactly that pid and that text |
| Observation.TrackedTextsDiffer | fdcount.py:141-142 | with pid tracking, processes with different pids never share a text |
| Observation.FallbackTextsDiffer | fdcount.py:128 | the fallback texts of different pids differ |
| Observation.LabelsUpTo | fdcount.py:138-143 | after storing a prefix of the processes, the labels are exactly those of the prefix's texts; each label holds the last process in the prefix that carries it |
| Observation.LabelsStep | fdcount.py:143 | storing one more process adds its label and keeps, for every label, the last process carrying it |
| Observation.NewLabels | fdcount.py:138-143 | `new_labels` has exactly the labels of the observed texts; of processes whose texts share a label, the last one is kept |
| Observation.FirstOccurrences | fdcount.py:143 | no label occurs twice, and the labels held are exactly those of the sequence; it is defined to keep them in order of first occurrence |
| Observation.NewLabelsOrder | fdcount.py:138-143 | the keys of `new_labels` are the observed labels in order of first assignment, whichever process ends up stored under each |
| Observation.TrackedProcessesAllKept | fdcount.py:5-10 | with pid tracking, distinct pids and no label collision among this run's distinct texts, no process is shadowed: each is stored under its own label |
| Dict.Put | fdcount.py:143 | item assignment denotes the map updated at that key |
| Dict.PutKeys | fdcount.py:143 | item assignment leaves an existing key in its place and appends a new key |
| Dict.Update | fdcount.py:145-146 | `update` denotes the union with the argument winning; the keys are the old ones in order followed by the argument's new ones in order |
| Dict.UpdateIdempotent | fdcount.py:145-146 | updating twice with the same dict is updating once |
| Dict.InsertSorted | fdcount.py:113 | inserting a new key into a key-sorted dict keeps it sorted and denotes the map extended with that key |
| Dict.SortByKey | fdcount.py:113 | sorting by key gives ascending keys and denotes the same map |
| Dict.SortAscendingIsIdentity | fdcount.py:113 | a dict whose keys are already ascending is unchanged by sorting |
| Ordering.BelowIrreflexive | fdcount.py:113 | no string sorts before itself |
| Ordering.BelowTransitive | fdcount.py:113 | key order is transitive |
| Ordering.BelowTotal | fdcount.py:113 | of two different strings, one sorts before the other |
| State.ReadLabelsAsWritten | fdcount.py:136 | reading the old labels raises exactly when the state parsed to a non-object or its `labels` member is a non-object; otherwise it gives the saved labels, or none when the file is unreadable or has no `labels` member |
| State.Merge | fdcount.py:145-146 | the merged labels denote the union of the old and new labels. A shared label keeps the new process and an old-only label keeps its old process. Old labels keep their order and new labels follow in observation order |
| State.MergeIdempotent | fdcount.py:145-146 | merging the same observation twice equals merging it once |
| State.Persist | fdcount.py:110-113 | the written state holds a `labels` object; read back, it denotes the same labels with keys ascending |
| Report.CountFds | fdcount.py:93-98 | the count is reported exactly when the fd directory can be listed, and it is then the number of its entries; otherwise `U` |
| Report.ValueText | fdcount.py:154 | a value is printed as `U` exactly when undefined; a count is printed as a non-empty numeral without a leading zero that reads back as the count, which is `str(n)`, so a zero count prints `0` |
| Report.ValueTextInjective | fdcount.py:153-158 | different values are printed differently |
| Report.Measured | fdcount.py:154-155 | each fresh label, in order, is reported with the descriptor count of its process |
| Report.Vanished | fdcount.py:156-158 | the old labels not observed again are reported, in their old order, each as `U` |
| Report.FetchLabels | fdcount.py:153-158 | a fetch reports the fresh labels followed by the vanished old labels |
| Report.FetchCoversMergedLabels | fdcount.py:153-158 | a fetch reports each label at most once, and exactly the labels of the saved state |
| Report.FetchValues | fdcount.py:153-158 | a fetched label has its process's count when it was observed in this run, and `U` otherwise |
| Report.FetchLines | fdcount.py:153-158 | a fetch answer is one line per fresh label, in `new_labels` order, with its process's count, then one `U` line per old label not observed again, in the old order |
| Report.Header | fdcount.py:30-34 | the config header is the title naming the target, the vertical label and the `fs` category |
| Report.HeaderIdentifiesTarget | fdcount.py:30-34 | two targets get the same header exactly when they are the same target |
| Report.LabelBlocks | fdcount.py:35-38 | each label gives, in order, the line `fd_<label>.label <text>` and then `fd_<label>.min 0` |
| Report.ConfigLines | fdcount.py:149-152 | a `config` answer is the three-line header followed by the two lines of each saved label, in state order |
| State.OldLabels | fdcount.py:136 | the corrected reading of the previous labels: the saved labels when the state holds a `labels` object, and no history for every other state, including those the code as written raises on |
| Plugin.MuninPrint | fdcount.py:133-161 | whatever the action, the saved state is a `labels` object whose keys are in ascending order and whose map is the old labels overlaid with the new, which fixes the file uniquely. Only an action other than none or `config` fails, with the message `invalid action: ...`. A `config` answer has three plus two lines per saved label; a fetch answer has one line per saved label |
| Plugin.MuninPrintAsWritten | fdcount.py:136-147 | the code as written fails exactly on a state whose top level or `labels` member is not an object; otherwise it does what `MuninPrint` does |
| Plugin.FetchTwiceIsStable | fdcount.py:136-147 | a second fetch over the same processes saves exactly the state the first fetch saved |
| Plugin.Dispatch | fdcount.py:164-170 | no argument is a fetch and a first argument `config` is a config request; anything else fails with `invalid arguments: ` followed by the arguments joined by spaces |
| Plugin.Main | fdcount.py:164-170 | a state is saved exactly when the arguments are valid, and the run fails exactly when nothing is saved, with the usage message; a saved state is the old labels overlaid with the new |
| Plugin.MainAsWritten | fdcount.py:164-170 | as written, valid arguments with a non-object state (or `labels` member) save nothing and fail; in every other case it behaves as `Main` |
| Plugin.AsWrittenCorruptionIsPermanent | fdcount.py:136-147 | as written, such a state file is never replaced, whatever invocations follow |
| Plugin.AsWrittenFetchFailsOnListLabels | fdcount.py:136 | with `{"labels": []}` saved, a fetch fails as written and succeeds when corrected |
| Plugin.StepWritesLabels | fdcount.py:147 | a valid invocation leaves a state holding a `labels` object; an invalid one leaves the state as it was |
| Plugin.ReadableStaysReadable | fdcount.py:147 | a state holding a `labels` object keeps holding one over any series of invocations |
| Plugin.LabelsAfterValidRun | fdcount.py:145-147 | with the corrected reading, after any series that contains a valid invocation, the state holds a `labels` object |
| Plugin.CorrectedStateIsReadableAfterValidRun | fdcount.py:136 | after such a series, even the code as written reads the state without raising |
| Plugin.OnlyBashMatches | fdcount.py:79-90 | with bash at `/usr/bin/bash` and sh at `/usr/bin/sh`, only bash matches the loose target `bash` |
| Plugin.SingleObservation | fdcount.py:138-143 | observing one process stores just that process under the label of its text |
| Plugin.TwoShellsObservation | fdcount.py:138-143 | in the bash-and-sh table, the fresh observation is the bash process alone |
| Plugin.FetchOfSingleLabel | fdcount.py:153-155 | with no history, a single fresh label gives one value line with its count |
| Plugin.FetchOfSingleVanished | fdcount.py:156-158 | with one label of history and nothing fresh, the answer is one `U` line |
| Plugin.FetchReportsOnlyTheTarget | fdcount.py:153-158 | a first fetch over bash and sh prints `fd_<label>.value <n>` for bash alone |
| Plugin.SaveSingle | fdcount.py:145-147 | with no history, a single fresh label is saved as it is |
| Plugin.TwoShellsSaved | fdcount.py:145-147 | a first run over bash and sh saves the bash process alone |
| Plugin.NoBashLeft | fdcount.py:65-76 | once bash has exited, nothing matches it |
| Plugin.FetchReportsVanishedAsUndefined | fdcount.py:153-158 | after bash exits, a fetch over the saved state reports bash's label as `U` |

## Left out

- Reading the environment (`configure`, lines 56-62) and the check that `MUNIN_STATEFILE` is set (lines 49-50) are not modelled. The settings are a parameter, because these are environment reads.
- Listing `/proc/*/exe` and parsing the directory name as a pid (lines 70-74) are not modelled. The pids come in as a list of naturals, so non-numeric entries do not arise.
- File reads, `readlink` and `listdir` are inputs, given as maps; an absent key means the call raised. One consequence: a cmdline that is not valid UTF-8 raises `UnicodeDecodeError` in the source, which is not an `OSError` and would end the run. That case is not represented.
- Universal-newline translation when reading the cmdline (`\r\n` becomes `\n`) is not modelled. It cannot change the result, because both forms are whitespace runs that collapse to one space.
- `label` (an upper-case MD5 hex digest, lines 116-118) is the parameter `labelOf`. Only `Observation.TrackedProcessesAllKept` assumes anything about it: that this run's distinct texts get distinct labels.
- JSON text is not modelled. The state file is modelled as the value it parses to (`State.StateFile`). Indentation and `ensure_ascii` are not modelled, and a `Process` is kept as a pair rather than as the two-element list JSON stores it as.
- Saved label entries that are not `[pid, command]` lists are not represented. An old entry is indexed at line 151 (config) and at line 156 (a fetch that reports it as vanished). An entry that cannot be indexed raises there. A string of two or more characters does not raise; it is indexed character by character.
- Failures of `munin_state_write` (an unwritable state file) are not modelled, because they are I/O failures.
- `print('\n'.join(response))` (line 161) is not modelled. The answer is given as the list of lines; each multi-line template item counts as its separate lines. An empty answer (a fetch with no labels at all) prints one empty line, where the model's answer is the empty list.
- The model has no concurrency: two plugin runs that race on the state file are not represented.
- `Text.IsSpace` is the whitespace set of the Unicode database used by current Python 3 releases. A Python built with a different Unicode version could differ.

## Findings

| source | as written | input that shows it | evidently intended | confidence | as-written member | corrected member |
|---|---|---|---|---|---|---|
| fdcount.py:136 | `munin_state_read()` turns an unreadable or non-JSON file into `{}`. But if the file parses to JSON whose top level or `labels` member is not an object, `.get`, `.copy` or `.update` raises `AttributeError`. That happens before the state is written at line 147, so the file is never replaced and every later run raises the same way. | a state file containing `{"labels": []}` (or `[]`, or `null`), for example one left by an older plugin version with a different state format | an unusable state reads as no history, as for an unreadable file, and the next run replaces it | medium; not executed | Plugin.AsWrittenCorruptionIsPermanent, Plugin.AsWrittenFetchFailsOnListLabels, Plugin.MainAsWritten | Plugin.Main, Plugin.CorrectedStateIsReadableAfterValidRun |

=== FILE: cmdline.dfy ===
/** `command_line` in fdcount.py: the text a process is known by. The raw
    contents of `/proc/<pid>/cmdline` are an input, None when the read
    fails. */
module CommandLine {

  import opened Wrappers
  import opened Text

  predicate AllSpace(s: string)
  {
    forall i :: 0 <= i < |s| ==> IsSpace(s[i])
  }

  /** A normalised command: whitespace occurs only as single spaces strictly
      between two other characters. */
  predicate Canonical(s: string)
  {
    && (forall i :: 0 <= i < |s| && IsSpace(s[i]) ==> s[i] == ' ' && 0 < i < |s| - 1)
    && (forall i :: 0 <= i < |s| - 1 ==> !(IsSpace(s[i]) && IsSpace(s[i + 1])))
  }

  /** The text reported for a process whose command line cannot be read. */
  function Fallback(pid: nat): string
  {
    "Unknown command; pid " + Decimal(pid)
  }

  /** `raw.replace('\0', ' ')`: the argument separators become spaces. */
  function ReplaceNul(s: string): (r: string)
    ensures |r| == |s|
    ensures '\0' !in r
    ensures forall i :: 0 <= i < |s| && s[i] != '\0' ==> r[i] == s[i]
    ensures forall i :: 0 <= i < |s| && s[i] == '\0' ==> r[i] == ' '
  {
    if |s| == 0 then ""
    else [if s[0] == '\0' then ' ' else s[0]] + ReplaceNul(s[1..])
  }

  /** `lstrip()`: what is left after the leading whitespace. */
  function DropSpaces(s: string): (r: string)
    ensures |r| <= |s|
    ensures r == [] || !IsSpace(r[0])
    decreases |s|
  {
    if |s| > 0 && IsSpace(s[0]) then DropSpaces(s[1..]) else s
  }

  /** `lstrip()` removes exactly a whitespace prefix. */
  lemma {:induction false} DropSpacesIsSuffix(s: string)
    ensures DropSpaces(s) == s[|s| - |DropSpaces(s)|..]
    ensures AllSpace(s[..|s| - |DropSpaces(s)|])
    decreases |s|
  {
    if |s| > 0 && IsSpace(s[0]) {
      DropSpacesIsSuffix(s[1..]);
      var k := |s| - |DropSpaces(s)|;
      assert s[1..][k - 1..] == s[k..];
      assert forall i :: 1 <= i < k ==> s[i] == s[1..][i - 1];
    }
  }

  /** `rstrip()`: what is left before the trailing whitespace. */
  function DropTrailingSpaces(s: string): (r: string)
    ensures |r| <= |s|
    ensures r == [] || !IsSpace(r[|r| - 1])
    decreases |s|
  {
    if |s| > 0 && IsSpace(s[|s| - 1]) then DropTrailingSpaces(s[..|s| - 1]) else s
  }

  /** `rstrip()` removes exactly a whitespace suffix. */
  lemma {:induction false} DropTrailingSpacesIsPrefix(s: string)
    ensures DropTrailingSpaces(s) == s[..|DropTrailingSpaces(s)|]
    ensures AllSpace(s[|DropTrailingSpaces(s)|..])
    decreases |s|
  {
    if |s| > 0 && IsSpace(s[|s| - 1]) {
      var p := s[..|s| - 1];
      DropTrailingSpacesIsPrefix(p);
      var k := |DropTrailingSpaces(s)|;
      assert p[..k] == s[..k];
      assert forall i :: k <= i < |s| - 1 ==> s[i] == p[i];
    }
  }

  /** `strip()` */
  function Strip(s: string): string
  {
    DropTrailingSpaces(DropSpaces(s))
  }

  /** `strip()` keeps a slice of s with only whitespace outside it and none
      at either end of it. */
  lemma StripIsTrim(s: string)
    ensures var r := Strip(s);
      exists i :: 0 <= i <= |s| - |r| && r == s[i..i + |r|] && AllSpace(s[..i]) && AllSpace(s[i + |r|..])
    ensures var r := Strip(s);
      r == [] || (!IsSpace(r[0]) && !IsSpace(r[|r| - 1]))
  {
    var u := DropSpaces(s);
    var r := DropTrailingSpaces(u);
    DropSpacesIsSuffix(s);
    DropTrailingSpacesIsPrefix(u);
    var i := |s| - |u|;
    assert s[i..i + |r|] == r && AllSpace(s[..i]) && AllSpace(s[i + |r|..]) by {
      assert s[i + |r|..] == u[|r|..];
    }
    if |r| > 0 {
      assert r[0] == u[0];
    }
  }

  /** `re.sub(r'\s+', ' ', s)`: every maximal run of whitespace becomes one
      space. */
  function Collapse(s: string): (r: string)
    ensures |r| <= |s|
    ensures |r| == 0 <==> |s| == 0
    ensures |s| > 0 ==> (IsSpace(r[0]) <==> IsSpace(s[0]))
    ensures |s| > 0 ==> (IsSpace(r[|r| - 1]) <==> IsSpace(s[|s| - 1]))
    ensures forall i :: 0 <= i < |r| && IsSpace(r[i]) ==> r[i] == ' '
    ensures forall i :: 0 <= i < |r| - 1 ==> !(IsSpace(r[i]) && IsSpace(r[i + 1]))
    decreases |s|
  {
    if |s| == 0 then ""
    else if IsSpace(s[0]) then
      var t := DropSpaces(s[1..]);
      DropSpacesIsSuffix(s[1..]);
      assert |t| > 0 ==> t[|t| - 1] == s[|s| - 1];
      assert |t| == 0 ==> IsSpace(s[|s| - 1]);
      " " + Collapse(t)
    else
      [s[0]] + Collapse(s[1..])
  }

  /** `command_line`: the fallback text when the read fails; otherwise the
      raw text with NULs turned to spaces, stripped, and its whitespace runs
      collapsed. */
  function CommandLine(pid: nat, raw: Option<string>): (r: string)
    ensures raw.None? ==> r == Fallback(pid)
    ensures '\0' !in r
    ensures raw.Some? ==> Canonical(r)
    ensures raw.Some? ==> r == Join(Words(ReplaceNul(raw.value)), " ")
  {
    match raw
    case None =>
      var r := Fallback(pid);
      assert forall i :: 0 <= i < |r| ==> r[i] != '\0' by {
        assert "Unknown command; pid "[..] == "Unknown command; pid ";
      }
      r
    case Some(text) =>
      var r := Collapse(Strip(ReplaceNul(text)));
      NormalisedIsJoinedWords(ReplaceNul(text));
      r
  }

  // Python's `str.split()` with no argument, and the proof that the
  // normaliser is `' '.join(raw.split())`.

  /** The longest prefix of s without whitespace. */
  function TakeWord(s: string): (w: string)
    ensures |w| <= |s|
    ensures |w| == |s| || IsSpace(s[|w|])
    ensures |s| > 0 && !IsSpace(s[0]) ==> |w| > 0
  {
    if |s| > 0 && !IsSpace(s[0]) then [s[0]] + TakeWord(s[1..]) else ""
  }

  lemma {:induction false} TakeWordIsPrefix(s: string)
    ensures TakeWord(s) == s[..|TakeWord(s)|]
    ensures forall i :: 0 <= i < |TakeWord(s)| ==> !IsSpace(s[i])
  {
    if |s| > 0 && !IsSpace(s[0]) {
      TakeWordIsPrefix(s[1..]);
      assert forall i :: 1 <= i < |TakeWord(s)| ==> s[i] == s[1..][i - 1];
    }
  }

  /** `s.split()`: the maximal whitespace-free runs of s, in order. */
  function Words(s: string): (ws: seq<string>)
    ensures forall i :: 0 <= i < |ws| ==> |ws[i]| > 0
    decreases |s|
  {
    var t := DropSpaces(s);
    if |t| == 0 then []
    else
      var w := TakeWord(t);
      [w] + Words(t[|w|..])
  }

  lemma WordsOfAllSpace(s: string)
    requires AllSpace(s)
    ensures Words(s) == []
  {
    DropSpacesIsSuffix(s);
    assert |DropSpaces(s)| == 0;
  }

  lemma WordsStartingWithWord(s: string)
    requires |s| > 0 && !IsSpace(s[0])
    ensures |Words(s)| > 0
  {
    assert DropSpaces(s) == s;
  }

  lemma WordsSkipSpace(s: string)
    requires |s| > 0 && IsSpace(s[0])
    ensures Words(s) == Words(s[1..])
  {
  }

  /** Words depend only on what follows the leading whitespace. */
  lemma WordsAfterDropSpaces(s: string)
    ensures Words(DropSpaces(s)) == Words(s)
  {
    var t := DropSpaces(s);
    assert DropSpaces(t) == t;
  }

  /** A string that starts with a word has that word first. */
  lemma WordsUnfold(s: string)
    requires |s| > 0 && !IsSpace(s[0])
    ensures Words(s) == [TakeWord(s)] + Words(s[|TakeWord(s)|..])
  {
    assert DropSpaces(s) == s;
  }

  /** A non-space character in front of x starts a new word when x is empty
      or starts with whitespace, and joins x's first word otherwise. */
  lemma WordsCons(c: char, x: string)
    requires !IsSpace(c)
    ensures Words([c] + x) ==
              if |x| == 0 || IsSpace(x[0]) then [[c]] + Words(x)
              else [[c] + Words(x)[0]] + Words(x)[1..]
  {
    var s := [c] + x;
    assert s[1..] == x;
    WordsUnfold(s);
    if |x| == 0 || IsSpace(x[0]) {
      assert TakeWord(x) == "";
      assert TakeWord(s) == [c];
    } else {
      var w := TakeWord(x);
      WordsUnfold(x);
      assert TakeWord(s) == [c] + w;
      assert s[|w| + 1..] == x[|w|..];
    }
  }

  lemma {:induction false} WordsLeadingSpace(sp: string, t: string)
    requires AllSpace(sp)
    ensures Words(sp + t) == Words(t)
  {
    if |sp| > 0 {
      WordsSkipSpace(sp + t);
      assert (sp + t)[1..] == sp[1..] + t;
      WordsLeadingSpace(sp[1..], t);
    } else {
      assert sp + t == t;
    }
  }

  lemma {:induction false} WordsTrailingSpace(t: string, sp: string)
    requires AllSpace(sp)
    ensures Words(t + sp) == Words(t)
    decreases |t|
  {
    if |t| == 0 {
      assert t + sp == sp;
      WordsOfAllSpace(sp);
      WordsOfAllSpace(t);
    } else if IsSpace(t[0]) {
      WordsSkipSpace(t + sp);
      WordsSkipSpace(t);
      assert (t + sp)[1..] == t[1..] + sp;
      WordsTrailingSpace(t[1..], sp);
    } else {
      var c, x := t[0], t[1..];
      assert t + sp == [c] + (x + sp);
      assert t == [c] + x;
      WordsTrailingSpace(x, sp);
      if |x| > 0 {
        assert (x + sp)[0] == x[0];
      } else {
        assert x + sp == sp;
      }
      ConsBranch(c, x, x + sp);
    }
  }

  /** `WordsCons` gives equal results for two tails with equal words and the
      same kind of first character. */
  lemma ConsBranch(c: char, x: string, y: string)
    requires !IsSpace(c)
    requires (|x| == 0 || IsSpace(x[0])) <==> (|y| == 0 || IsSpace(y[0]))
    requires Words(x) == Words(y)
    ensures Words([c] + x) == Words([c] + y)
  {
    WordsCons(c, x);
    WordsCons(c, y);
    if |x| > 0 && !IsSpace(x[0]) {
      WordsStartingWithWord(x);
    }
  }

  /** Stripping does not change the words. */
  lemma StripKeepsWords(s: string)
    ensures Words(Strip(s)) == Words(s)
  {
    var u := DropSpaces(s);
    var r := DropTrailingSpaces(u);
    assert Strip(s) == r;
    assert Words(u) == Words(s) by {
      WordsAfterDropSpaces(s);
    }
    assert Words(r) == Words(u) by {
      DropTrailingSpacesIsPrefix(u);
      assert u == r + u[|r|..];
      WordsTrailingSpace(r, u[|r|..]);
    }
  }

  /** Collapsing whitespace runs does not change the words. */
  lemma {:induction false} CollapseKeepsWords(s: string)
    ensures Words(Collapse(s)) == Words(s)
    decreases |s|
  {
    if |s| == 0 {
    } else if IsSpace(s[0]) {
      var t := DropSpaces(s[1..]);
      assert Collapse(s) == " " + Collapse(t);
      assert Words(" " + Collapse(t)) == Words(Collapse(t)) by {
        WordsSkipSpace(" " + Collapse(t));
        assert (" " + Collapse(t))[1..] == Collapse(t);
      }
      assert Words(Collapse(t)) == Words(t) by {
        CollapseKeepsWords(t);
      }
      assert Words(t) == Words(s) by {
        WordsSkipSpace(s);
        WordsAfterDropSpaces(s[1..]);
      }
    } else {
      var x := s[1..];
      assert Collapse(s) == [s[0]] + Collapse(x);
      assert s == [s[0]] + x;
      CollapseKeepsWords(x);
      ConsBranch(s[0], x, Collapse(x));
    }
  }

  /** A canonical string is the single-space join of its own words. */
  lemma {:induction false} CanonicalIsJoinedWords(r: string)
    requires Canonical(r)
    ensures Join(Words(r), " ") == r
    decreases |r|
  {
    if |r| > 0 {
      var w := TakeWord(r);
      CanonicalSplit(r);
      if |w| < |r| {
        var r' := r[|w| + 1..];
        CanonicalIsJoinedWords(r');
        JoinCons(w, Words(r'));
      }
    }
  }

  /** A non-empty canonical string is either a single word, or its first
      word, one space, and a canonical rest with at least one word. */
  lemma CanonicalSplit(r: string)
    requires Canonical(r) && |r| > 0
    ensures var w := TakeWord(r);
      && (|w| == |r| ==> Words(r) == [r])
      && (|w| < |r| ==>
            && |w| + 1 < |r|
            && Canonical(r[|w| + 1..])
            && |Words(r[|w| + 1..])| > 0
            && Words(r) == [w] + Words(r[|w| + 1..])
            && r == w + " " + r[|w| + 1..])
  {
    CanonicalFirstWord(r);
    if |TakeWord(r)| == |r| {
      CanonicalSingleWord(r);
    } else {
      CanonicalManyWords(r);
    }
  }

  lemma CanonicalSingleWord(r: string)
    requires |r| > 0 && |TakeWord(r)| == |r|
    requires Words(r) == [TakeWord(r)] + Words(r[|TakeWord(r)|..])
    requires TakeWord(r) == r[..|TakeWord(r)|]
    ensures Words(r) == [r]
  {
    var w := TakeWord(r);
    assert r[|w|..] == [];
    WordsOfAllSpace([]);
    assert w == r;
  }

  lemma CanonicalManyWords(r: string)
    requires |TakeWord(r)| < |r|
    requires var w := TakeWord(r);
      && w == r[..|w|]
      && Words(r) == [w] + Words(r[|w|..])
      && r[|w|] == ' ' && |w| + 1 < |r| && !IsSpace(r[|w| + 1])
    ensures var w := TakeWord(r);
      && |Words(r[|w| + 1..])| > 0
      && Words(r) == [w] + Words(r[|w| + 1..])
      && r == w + " " + r[|w| + 1..]
  {
    var n := |TakeWord(r)|;
    SpaceSeparated(r, n);
    WordsStartingWithWord(r[n + 1..]);
  }

  /** A string with a space at n is what comes before it, the space, and
      what comes after; from n on it has the words of what comes after. */
  lemma SpaceSeparated(r: string, n: nat)
    requires n < |r| && r[n] == ' '
    ensures Words(r[n..]) == Words(r[n + 1..])
    ensures r == r[..n] + " " + r[n + 1..]
  {
    WordsSkipSpace(r[n..]);
    assert r[n..][1..] == r[n + 1..];
    assert r[n..] == " " + r[n + 1..];
    assert r == r[..n] + r[n..];
  }

  /** A non-empty canonical string is its first word, then either nothing or
      one space and a canonical rest that starts with a word. */
  lemma CanonicalFirstWord(r: string)
    requires Canonical(r) && |r| > 0
    ensures var w := TakeWord(r);
      && w == r[..|w|]
      && Words(r) == [w] + Words(r[|w|..])
      && (|w| < |r| ==>
            && r[|w|] == ' ' && |w| + 1 < |r| && !IsSpace(r[|w| + 1])
            && Canonical(r[|w| + 1..]))
  {
    assert DropSpaces(r) == r;
    var w := TakeWord(r);
    TakeWordIsPrefix(r);
    if |w| < |r| {
      CanonicalSuffix(r, |w| + 1);
    }
  }

  lemma CanonicalSuffix(r: string, k: nat)
    requires Canonical(r) && k < |r| && !IsSpace(r[k])
    ensures Canonical(r[k..])
  {
    var r' := r[k..];
    forall i | 0 <= i < |r'| && IsSpace(r'[i])
      ensures r'[i] == ' ' && 0 < i < |r'| - 1
    {
      assert r'[i] == r[k + i];
    }
    forall i | 0 <= i < |r'| - 1
      ensures !(IsSpace(r'[i]) && IsSpace(r'[i + 1]))
    {
      assert r'[i] == r[k + i] && r'[i + 1] == r[k + i + 1];
    }
  }

  lemma JoinCons(w: string, ws: seq<string>)
    requires |ws| > 0
    ensures Join([w] + ws, " ") == w + " " + Join(ws, " ")
  {
    assert ([w] + ws)[1..] == ws;
  }

  /** The normaliser `re.sub(r'\s+', ' ', s.strip())` equals
      `' '.join(s.split())`, is canonical, and brings in no NUL. */
  lemma NormalisedIsJoinedWords(s: string)
    ensures '\0' !in s ==> '\0' !in Collapse(Strip(s))
    ensures Canonical(Collapse(Strip(s)))
    ensures Collapse(Strip(s)) == Join(Words(s), " ")
  {
    var t := Strip(s);
    var r := Collapse(t);
    StripIsTrim(s);
    CollapseOfTrimmedIsCanonical(t);
    StripKeepsWords(s);
    CollapseKeepsWords(t);
    CanonicalIsJoinedWords(r);
    if '\0' !in s {
      assert '\0' !in t;
      CollapseAddsOnlySpaces(t);
    }
  }

  /** Collapsing brings in no character but the space. */
  lemma {:induction false} CollapseAddsOnlySpaces(s: string)
    ensures forall c :: c in Collapse(s) ==> c == ' ' || c in s
    decreases |s|
  {
    if |s| > 0 {
      if IsSpace(s[0]) {
        var t := DropSpaces(s[1..]);
        DropSpacesIsSuffix(s[1..]);
        CollapseAddsOnlySpaces(t);
        forall c | c in t
          ensures c in s
        {
          var i :| 0 <= i < |t| && t[i] == c;
          assert c == s[1..][|s[1..]| - |t| + i];
        }
      } else {
        CollapseAddsOnlySpaces(s[1..]);
      }
    }
  }

  lemma CollapseOfTrimmedIsCanonical(t: string)
    requires t == [] || (!IsSpace(t[0]) && !IsSpace(t[|t| - 1]))
    ensures Canonical(Collapse(t))
  {
    var r := Collapse(t);
    forall i | 0 <= i < |r| && IsSpace(r[i])
      ensures r[i] == ' ' && 0 < i < |r| - 1
    {
      assert i != 0 && i != |r| - 1;
    }
  }
}

=== FILE: dict.dfy ===
/** Python's insertion-ordered dict with string keys, as an association list
    whose keys are pairwise distinct. `ToMap` forgets the order; `Keys` keeps
    it. */
module Dict {

  import opened Wrappers
  import opened Ordering

  predicate Distinct(s: seq<string>)
  {
    forall i, j :: 0 <= i < j < |s| ==> s[i] != s[j]
  }

  /** No key occurs twice. */
  predicate DistinctKeys<V>(d: seq<(string, V)>)
  {
    Distinct(Keys(d))
  }

  type Dict<V> = d: seq<(string, V)> | DistinctKeys(d) witness []

  /** The keys in insertion order. */
  function Keys<V>(d: seq<(string, V)>): (ks: seq<string>)
    ensures |ks| == |d|
    ensures forall i :: 0 <= i < |d| ==> ks[i] == d[i].0
  {
    if |d| == 0 then [] else [d[0].0] + Keys(d[1..])
  }

  /** The elements of ks that are not in drop, in their order in ks. */
  function Without(ks: seq<string>, drop: seq<string>): (r: seq<string>)
    ensures forall k :: k in r <==> k in ks && k !in drop
  {
    if |ks| == 0 then []
    else if ks[0] in drop then Without(ks[1..], drop)
    else [ks[0]] + Without(ks[1..], drop)
  }

  lemma {:induction false} WithoutDistinct(ks: seq<string>, drop: seq<string>)
    requires Distinct(ks)
    ensures Distinct(Without(ks, drop))
  {
    if |ks| > 0 {
      WithoutDistinct(ks[1..], drop);
    }
  }

  /** The map a dict denotes. */
  function ToMap<V>(d: Dict<V>): map<string, V>
  {
    if |d| == 0 then map[] else ToMap(d[1..])[d[0].0 := d[0].1]
  }

  /** The map a dict denotes has the dict's keys, each bound to the value
      stored beside it. */
  lemma {:induction false} ToMapFacts<V>(d: Dict<V>)
    ensures forall k :: k in ToMap(d) <==> k in Keys(d)
    ensures forall i :: 0 <= i < |d| ==> d[i].0 in ToMap(d) && ToMap(d)[d[i].0] == d[i].1
  {
    if |d| > 0 {
      var t: Dict<V> := d[1..];
      ToMapFacts(t);
      assert Keys(d) == [d[0].0] + Keys(t);
      forall i | 0 <= i < |d|
        ensures ToMap(d)[d[i].0] == d[i].1
      {
        if i > 0 {
          assert d[i] == t[i - 1];
        }
      }
    }
  }

  /** Position of key k, if present. */
  function Find<V>(d: Dict<V>, k: string): (r: Option<nat>)
    ensures r.None? <==> k !in Keys(d)
    ensures r.Some? ==> r.value < |d| && d[r.value].0 == k
  {
    if |d| == 0 then None
    else if d[0].0 == k then Some(0)
    else match Find(d[1..], k)
      case None => None
      case Some(i) => Some(i + 1)
  }

  /** `d[k] = v`: an existing key keeps its position, a new key goes last. */
  function Put<V>(d: Dict<V>, k: string, v: V): (r: Dict<V>)
    ensures ToMap(r) == ToMap(d)[k := v]
  {
    match Find(d, k)
    case Some(i) =>
      ReplaceDenotes(d, i, v);
      d[i := (k, v)]
    case None =>
      AppendDenotes(d, k, v);
      d + [(k, v)]
  }

  /** Where `Put` leaves the key. */
  lemma PutKeys<V>(d: Dict<V>, k: string, v: V)
    ensures k in Keys(d) ==> Keys(Put(d, k, v)) == Keys(d)
    ensures k !in Keys(d) ==> Keys(Put(d, k, v)) == Keys(d) + [k]
  {
    match Find(d, k)
    case Some(i) =>
      assert Keys(d[i := (k, v)]) == Keys(d);
    case None =>
      assert Keys(d + [(k, v)]) == Keys(d) + [k];
  }

  lemma {:induction false} ReplaceDenotes<V>(d: Dict<V>, i: nat, v: V)
    requires i < |d|
    ensures DistinctKeys(d[i := (d[i].0, v)])
    ensures ToMap(d[i := (d[i].0, v)]) == ToMap(d)[d[i].0 := v]
  {
    var d' := d[i := (d[i].0, v)];
    assert Keys(d') == Keys(d);
    if i == 0 {
      assert d'[1..] == d[1..];
    } else {
      assert d'[1..] == d[1..][i - 1 := (d[i].0, v)];
      ReplaceDenotes(d[1..], i - 1, v);
    }
  }

  lemma {:induction false} AppendDenotes<V>(d: Dict<V>, k: string, v: V)
    requires k !in Keys(d)
    ensures DistinctKeys(d + [(k, v)])
    ensures ToMap(d + [(k, v)]) == ToMap(d)[k := v]
  {
    assert Keys(d + [(k, v)]) == Keys(d) + [k];
    var d': Dict<V> := d + [(k, v)];
    if |d| > 0 {
      var t: Dict<V> := d[1..];
      assert d'[1..] == t + [(k, v)];
      assert k != d[0].0 by { assert d[0].0 == Keys(d)[0]; }
      assert k !in Keys(t) by { assert Keys(d) == [d[0].0] + Keys(t); }
      AppendDenotes(t, k, v);
      MapUpdatesCommute(ToMap(t), k, v, d[0].0, d[0].1);
    }
  }

  lemma MapUpdatesCommute<V>(m: map<string, V>, a: string, x: V, b: string, y: V)
    requires a != b
    ensures m[a := x][b := y] == m[b := y][a := x]
  {
  }

  /** `d.update(e)`: put every entry of e, in e's order. */
  function Update<V>(d: Dict<V>, e: Dict<V>): (r: Dict<V>)
    ensures ToMap(r) == ToMap(d) + ToMap(e)
    ensures Keys(r) == Keys(d) + Without(Keys(e), Keys(d))
    decreases |e|
  {
    if |e| == 0 then
      assert ToMap(e) == map[];
      d
    else
      var k, v, t := e[0].0, e[0].1, e[1..];
      var d' := Put(d, k, v);
      var r := Update(d', t);
      FirstKeyNotInRest(e);
      ToMapFacts(t);
      UnionStep(ToMap(r), ToMap(d'), ToMap(d), ToMap(t), ToMap(e), k, v);
      PutKeys(d, k, v);
      KeyOrderStep(Keys(d), k, Keys(t), Keys(d'), Keys(r));
      assert Keys(e) == [k] + Keys(t);
      r
  }

  lemma UnionStep<V>(mr: map<string, V>, mput: map<string, V>, md: map<string, V>,
                     mt: map<string, V>, me: map<string, V>, k: string, v: V)
    requires mput == md[k := v] && me == mt[k := v] && k !in mt
    requires mr == mput + mt
    ensures mr == md + me
  {
  }

  /** The key-order half of one step of `Update`, over the key sequences alone. */
  lemma KeyOrderStep(kd: seq<string>, k: string, kt: seq<string>, kput: seq<string>, kr: seq<string>)
    requires k !in kt
    requires k in kd ==> kput == kd
    requires k !in kd ==> kput == kd + [k]
    requires kr == kput + Without(kt, kput)
    ensures kr == kd + Without([k] + kt, kd)
  {
    WithoutCons(k, kt, kd);
    if k !in kd {
      WithoutExtended(kt, kd, k);
      var w := Without(kt, kd);
      assert kr == (kd + [k]) + w;
      assert (kd + [k]) + w == kd + ([k] + w);
    } else {
      assert kr == kd + Without(kt, kd);
    }
  }

  lemma FirstKeyNotInRest<V>(e: Dict<V>)
    requires |e| > 0
    ensures e[0].0 !in Keys(e[1..])
  {
    var t := e[1..];
    forall i | 0 <= i < |t|
      ensures Keys(t)[i] != e[0].0
    {
      assert t[i] == e[i + 1];
    }
  }

  lemma WithoutCons(x: string, ks: seq<string>, drop: seq<string>)
    ensures Without([x] + ks, drop) == if x in drop then Without(ks, drop) else [x] + Without(ks, drop)
  {
    assert ([x] + ks)[1..] == ks;
  }

  lemma {:induction false} WithoutExtended(ks: seq<string>, drop: seq<string>, x: string)
    requires x !in ks
    ensures Without(ks, drop + [x]) == Without(ks, drop)
  {
    if |ks| > 0 {
      WithoutExtended(ks[1..], drop, x);
    }
  }

  /** Putting a key with the value it already has changes nothing. */
  lemma PutPresent<V>(d: Dict<V>, k: string, v: V)
    requires k in ToMap(d) && ToMap(d)[k] == v
    ensures Put(d, k, v) == d
  {
    ToMapFacts(d);
    var i := Find(d, k).value;
    assert d[i].0 == k;
    assert d[i].1 == v;
  }

  /** Updating with entries that are all already present changes nothing. */
  lemma {:induction false} UpdatePresent<V>(d: Dict<V>, e: Dict<V>)
    requires forall i :: 0 <= i < |e| ==> e[i].0 in ToMap(d) && ToMap(d)[e[i].0] == e[i].1
    ensures Update(d, e) == d
    decreases |e|
  {
    if |e| > 0 {
      PutPresent(d, e[0].0, e[0].1);
      UpdatePresent(d, e[1..]);
    }
  }

  /** Updating twice with the same dictionary is updating once. */
  lemma UpdateIdempotent<V>(d: Dict<V>, e: Dict<V>)
    ensures Update(Update(d, e), e) == Update(d, e)
  {
    ToMapFacts(e);
    UpdatePresent(Update(d, e), e);
  }

  /** Inserts a fresh key into a dict kept in ascending key order, at the
      place that keeps it ascending. */
  function InsertSorted<V>(d: Dict<V>, k: string, v: V): (r: Dict<V>)
    requires Ascending(Keys(d)) && k !in Keys(d)
    ensures Ascending(Keys(r))
    ensures ToMap(r) == ToMap(d)[k := v]
    ensures forall i :: 0 <= i < |r| ==> r[i].0 == k || r[i].0 in Keys(d)
    decreases |d|
  {
    if |d| == 0 then
      [(k, v)]
    else if Below(k, d[0].0) then
      ConsSorted((k, v), d);
      ConsDenotes((k, v), d);
      [(k, v)] + d
    else
      BelowTotal(k, d[0].0);
      var t: Dict<V> := d[1..];
      assert Keys(d) == [d[0].0] + Keys(t);
      var rest := InsertSorted(t, k, v);
      assert |rest| > 0 ==> Below(d[0].0, rest[0].0);
      ConsSorted(d[0], rest);
      ConsDenotes(d[0], rest);
      MapUpdatesCommute(ToMap(t), k, v, d[0].0, d[0].1);
      [d[0]] + rest
  }

  /** An entry whose key is below the first key of an ascending dict can
      go in front of it. */
  lemma ConsSorted<V>(e: (string, V), d: Dict<V>)
    requires Ascending(Keys(d))
    requires |d| > 0 ==> Below(e.0, d[0].0)
    ensures DistinctKeys([e] + d)
    ensures Ascending(Keys([e] + d))
  {
    KeysCons(e, d);
    ConsAscendingHead(e.0, Keys(d));
    AscendingDict([e] + d);
  }

  lemma KeysCons<V>(e: (string, V), d: seq<(string, V)>)
    ensures Keys([e] + d) == [e.0] + Keys(d)
  {
    assert ([e] + d)[1..] == d;
  }

  /** Entries in ascending key order form a dict. */
  lemma AscendingDict<V>(r: seq<(string, V)>)
    requires Ascending(Keys(r))
    ensures DistinctKeys(r)
  {
    AscendingIsDistinct(Keys(r));
    forall i, j | 0 <= i < j < |r|
      ensures r[i].0 != r[j].0
    {
      assert Keys(r)[i] != Keys(r)[j];
    }
  }

  /** The map of a dict with an entry in front. */
  lemma ConsDenotes<V>(e: (string, V), d: Dict<V>)
    requires DistinctKeys([e] + d)
    ensures ToMap([e] + d) == ToMap(d)[e.0 := e.1]
  {
    assert ([e] + d)[1..] == d;
  }

  /** The dict with its entries in ascending key order, as `json.dump`
      with `sort_keys=True` writes them. */
  function SortByKey<V>(d: Dict<V>): (r: Dict<V>)
    ensures Ascending(Keys(r))
    ensures ToMap(r) == ToMap(d)
    decreases |d|
  {
    if |d| == 0 then d
    else
      var t: Dict<V> := d[1..];
      var s := SortByKey(t);
      FirstKeyNotInRest(d);
      ToMapFacts(s);
      ToMapFacts(t);
      InsertSorted(s, d[0].0, d[0].1)
  }

  /** A dict has as many entries as the map it denotes has keys. */
  lemma {:induction false} ToMapSize<V>(d: Dict<V>)
    ensures |ToMap(d)| == |d|
    decreases |d|
  {
    if |d| > 0 {
      var t: Dict<V> := d[1..];
      ToMapSize(t);
      FirstKeyNotInRest(d);
      ToMapFacts(t);
    }
  }

  /** A sequence without repetitions has as many elements as its set. */
  lemma {:induction false} DistinctCard(s: seq<string>)
    requires Distinct(s)
    ensures |set x | x in s| == |s|
    decreases |s|
  {
    if |s| > 0 {
      DistinctCard(s[1..]);
      assert (set x | x in s) == {s[0]} + (set x | x in s[1..]);
      assert s[0] !in s[1..];
    }
  }

  /** Two sequences without repetitions that hold the same elements have
      the same length. */
  lemma SameElementsSameLength(a: seq<string>, b: seq<string>)
    requires Distinct(a) && Distinct(b)
    requires forall k :: k in a <==> k in b
    ensures |a| == |b|
  {
    DistinctCard(a);
    DistinctCard(b);
    assert (set x | x in a) == (set x | x in b);
  }

  /** Sorting a dict already in ascending key order leaves it as it is. */
  lemma {:induction false} SortAscendingIsIdentity<V>(d: Dict<V>)
    requires Ascending(Keys(d))
    ensures SortByKey(d) == d
    decreases |d|
  {
    if |d| > 0 {
      var t: Dict<V> := d[1..];
      assert Keys(d) == [d[0].0] + Keys(t);
      assert Ascending(Keys(t));
      SortAscendingIsIdentity(t);
      if |t| > 0 {
        assert Below(d[0].0, Keys(d)[1]);
      }
      assert [(d[0].0, d[0].1)] + t == d;
    }
  }
}

=== FILE: matcher.dfy ===
/** Deciding whether a process runs the monitored executable
    (`is_relevant` and `find_processes` in fdcount.py). The target of the
    process's `exe` link is an input: None when `readlink` fails. */
module Matcher {

  import opened Wrappers

  /** s ends with t. */
  predicate EndsWith(s: string, t: string)
  {
    |t| <= |s| && s[|s| - |t|..] == t
  }

  /** `os.path.basename`: everything after the last '/', or the whole path
      when it has none. */
  function Basename(path: string): (name: string)
    ensures '/' !in name
    ensures EndsWith(path, name)
    ensures |name| < |path| ==> path[|path| - |name| - 1] == '/'
    decreases |path|
  {
    if |path| == 0 || path[|path| - 1] == '/' then ""
    else Basename(path[..|path| - 1]) + [path[|path| - 1]]
  }

  /** The basename of a path is target exactly when target is a slash-free
      final component of it: the whole path, or the text after a '/'. */
  lemma BasenameIs(path: string, target: string)
    ensures Basename(path) == target <==>
              '/' !in target && (path == target || EndsWith(path, "/" + target))
  {
    var name := Basename(path);
    var n, m := |path|, |target|;
    if '/' !in target && (path == target || EndsWith(path, "/" + target)) {
      if path != target {
        assert path[n - m - 1] == '/' && path[n - m..] == target by {
          assert path[n - m - 1..] == "/" + target;
        }
      }
      assert |name| == m;
    }
    if name == target && path != target {
      assert path[n - m - 1..] == "/" + target;
    }
  }

  /** `is_relevant`: a process whose executable cannot be resolved never
      matches; otherwise strict mode compares the full path and loose mode
      compares only the final component. */
  function IsRelevant(exe: Option<string>, target: string, strict: bool): (r: bool)
    ensures exe.None? ==> !r
    ensures exe.Some? && strict ==> (r <==> exe.value == target)
    ensures exe.Some? && !strict ==>
              (r <==> '/' !in target && (exe.value == target || EndsWith(exe.value, "/" + target)))
  {
    match exe
    case None => false
    case Some(path) =>
      BasenameIs(path, target);
      (if strict then path else Basename(path)) == target
  }

  /** `find_processes`: the pids, in enumeration order, whose executable
      (looked up in exe; absent means readlink failed) is relevant. */
  function FindProcesses(pids: seq<nat>, exe: map<nat, string>, target: string, strict: bool): (r: seq<nat>)
    ensures forall p :: p in r <==> p in pids && IsRelevant(Lookup(exe, p), target, strict)
    ensures |r| <= |pids|
  {
    if |pids| == 0 then []
    else
      var rest := FindProcesses(pids[1..], exe, target, strict);
      if IsRelevant(Lookup(exe, pids[0]), target, strict) then [pids[0]] + rest else rest
  }

  /** Enumeration order is kept: matching a concatenation of two pid lists
      is matching each and concatenating. */
  lemma {:induction false} FindProcessesAppend(a: seq<nat>, b: seq<nat>, exe: map<nat, string>, target: string, strict: bool)
    ensures FindProcesses(a + b, exe, target, strict)
         == FindProcesses(a, exe, target, strict) + FindProcesses(b, exe, target, strict)
  {
    if |a| > 0 {
      assert (a + b)[1..] == a[1..] + b;
      FindProcessesAppend(a[1..], b, exe, target, strict);
    } else {
      assert a + b == b;
    }
  }
}

=== FILE: observation.dfy ===
/** The observation loop of `munin_print` in fdcount.py: each matched
    process gets a descriptive text, and the fresh observation maps the
    label of that text to the process. */
module Observation {

  import opened Wrappers
  import opened Text
  import opened Dict
  import CommandLine

  /** The `Process` named tuple: a pid and its descriptive text. */
  datatype Process = Process(pid: nat, command: string)

  /** The descriptive text of a matched process: its normalised command
      line, prefixed by `<pid>: ` when processes are tracked by pid. With
      pid tracking the text opens with the pid's decimal numeral, and both
      the pid and the command can be read back from it; without it the
      text is the command alone. */
  function Describe(pid: nat, raw: Option<string>, trackPids: bool): (text: string)
    ensures trackPids ==> DigitPrefix(text) == Decimal(pid)
    ensures trackPids ==> SplitPidPrefix(text) == Some((pid, CommandLine.CommandLine(pid, raw)))
    ensures !trackPids ==> text == CommandLine.CommandLine(pid, raw)
  {
    var command := CommandLine.CommandLine(pid, raw);
    if trackPids then
      PidPrefixReadBack(pid, command);
      Decimal(pid) + ": " + command
    else
      command
  }

  /** Reads a pid-prefixed text back into its pid and the text after `: `. */
  function SplitPidPrefix(text: string): Option<(nat, string)>
  {
    var ds := DigitPrefix(text);
    if |ds| > 0 && |ds| + 2 <= |text| && text[|ds|..|ds| + 2] == ": " then
      Some((DecimalValue(ds), text[|ds| + 2..]))
    else
      None
  }

  /** A pid-prefixed text opens with exactly the pid's numeral and reads
      back into its pid and the text after it. */
  lemma PidPrefixReadBack(pid: nat, command: string)
    ensures DigitPrefix(Decimal(pid) + ": " + command) == Decimal(pid)
    ensures SplitPidPrefix(Decimal(pid) + ": " + command) == Some((pid, command))
  {
    var d := Decimal(pid);
    var text := d + ": " + command;
    DigitPrefixOfNumeral(d, ": " + command);
    assert text == d + (": " + command);
    assert text[|d|..|d| + 2] == ": ";
    assert text[|d| + 2..] == command;
    DecimalRoundTrip(pid);
  }

  /** With pid tracking, two processes with different pids never share a
      descriptive text, whatever their command lines. */
  lemma TrackedTextsDiffer(p: nat, rawP: Option<string>, q: nat, rawQ: Option<string>)
    requires p != q
    ensures Describe(p, rawP, true) != Describe(q, rawQ, true)
  {
  }

  /** Two processes whose command lines cannot be read never share a
      fallback text. */
  lemma FallbackTextsDiffer(p: nat, q: nat)
    requires p != q
    ensures CommandLine.Fallback(p) != CommandLine.Fallback(q)
  {
    var prefix := "Unknown command; pid ";
    if CommandLine.Fallback(p) == CommandLine.Fallback(q) {
      assert Decimal(p) == CommandLine.Fallback(p)[|prefix|..];
      assert Decimal(q) == CommandLine.Fallback(q)[|prefix|..];
      DecimalInjective(p, q);
    }
  }

  /** The processes with the given pids, in order, each with its descriptive text. */
  function Observe(pids: seq<nat>, cmdline: map<nat, string>, trackPids: bool): seq<Process>
  {
    seq(|pids|, i requires 0 <= i < |pids| =>
      Process(pids[i], Describe(pids[i], Lookup(cmdline, pids[i]), trackPids)))
  }

  /** No process after ps[i] and before ps[n] carries the same label as ps[i]. */
  ghost predicate LastWithItsLabel(ps: seq<Process>, labelOf: string -> string, i: nat, n: nat)
    requires i < n <= |ps|
  {
    forall j :: i < j < n ==> labelOf(ps[j].command) != labelOf(ps[i].command)
  }

  /** `new_labels` after the first n processes have been stored. */
  function LabelsUpTo(ps: seq<Process>, labelOf: string -> string, n: nat): (d: Dict<Process>)
    requires n <= |ps|
    ensures ToMap(d).Keys == set i | 0 <= i < n :: labelOf(ps[i].command)
    ensures forall i :: 0 <= i < n && LastWithItsLabel(ps, labelOf, i, n) ==>
              ToMap(d)[labelOf(ps[i].command)] == ps[i]
  {
    if n == 0 then []
    else
      var prev := LabelsUpTo(ps, labelOf, n - 1);
      var d := Put(prev, labelOf(ps[n - 1].command), ps[n - 1]);
      LabelsStep(ToMap(prev), ToMap(d), ps, labelOf, n);
      d
  }

  /** Storing ps[n - 1] extends the stored labels of the first n - 1
      processes to those of the first n, keeping the last of each label. */
  lemma LabelsStep(prev: map<string, Process>, m: map<string, Process>, ps: seq<Process>,
                   labelOf: string -> string, n: nat)
    requires 0 < n <= |ps|
    requires prev.Keys == set i | 0 <= i < n - 1 :: labelOf(ps[i].command)
    requires forall i :: 0 <= i < n - 1 && LastWithItsLabel(ps, labelOf, i, n - 1) ==>
               prev[labelOf(ps[i].command)] == ps[i]
    requires m == prev[labelOf(ps[n - 1].command) := ps[n - 1]]
    ensures m.Keys == set i | 0 <= i < n :: labelOf(ps[i].command)
    ensures forall i :: 0 <= i < n && LastWithItsLabel(ps, labelOf, i, n) ==>
              m[labelOf(ps[i].command)] == ps[i]
  {
    LabelKeysStep(prev.Keys, m.Keys, ps, labelOf, n);
    forall i | 0 <= i < n && LastWithItsLabel(ps, labelOf, i, n)
      ensures m[labelOf(ps[i].command)] == ps[i]
    {
      if i < n - 1 {
        assert labelOf(ps[n - 1].command) != labelOf(ps[i].command);
        assert LastWithItsLabel(ps, labelOf, i, n - 1);
      }
    }
  }

  /** The labels of the first n processes are those of the first n - 1
      and the label of ps[n - 1]. */
  lemma LabelKeysStep(prev: set<string>, keys: set<string>, ps: seq<Process>, labelOf: string -> string, n: nat)
    requires 0 < n <= |ps|
    requires prev == set i | 0 <= i < n - 1 :: labelOf(ps[i].command)
    requires keys == prev + {labelOf(ps[n - 1].command)}
    ensures keys == set i | 0 <= i < n :: labelOf(ps[i].command)
  {
    var upTo := set i | 0 <= i < n :: labelOf(ps[i].command);
    forall x | x in upTo
      ensures x in keys
    {
      var i :| 0 <= i < n && x == labelOf(ps[i].command);
      if i < n - 1 {
        assert x in prev;
      }
    }
  }

  /** `new_labels`: each process stored under the label of its text, one
      after another, so that of several processes whose texts share a
      label the last one is kept. */
  function NewLabels(ps: seq<Process>, labelOf: string -> string): (d: Dict<Process>)
    ensures ToMap(d).Keys == set i | 0 <= i < |ps| :: labelOf(ps[i].command)
    ensures forall i :: 0 <= i < |ps| && LastWithItsLabel(ps, labelOf, i, |ps|) ==>
              ToMap(d)[labelOf(ps[i].command)] == ps[i]
  {
    LabelsUpTo(ps, labelOf, |ps|)
  }

  /** With pid tracking, distinct pids and no label collision among this
      run's texts, no process shadows another: every matched process is
      kept under the label of its text. */
  lemma TrackedProcessesAllKept(pids: seq<nat>, cmdline: map<nat, string>, labelOf: string -> string)
    requires forall i, j :: 0 <= i < j < |pids| ==> pids[i] != pids[j]
    requires var ps := Observe(pids, cmdline, true);
             forall i, j :: 0 <= i < j < |ps| && ps[i].command != ps[j].command ==>
               labelOf(ps[i].command) != labelOf(ps[j].command)
    ensures var ps := Observe(pids, cmdline, true);
            forall i :: 0 <= i < |ps| ==> ToMap(NewLabels(ps, labelOf))[labelOf(ps[i].command)] == ps[i]
  {
    var ps := Observe(pids, cmdline, true);
    forall i, j | 0 <= i < j < |ps|
      ensures labelOf(ps[j].command) != labelOf(ps[i].command)
    {
      TrackedTextsDiffer(pids[i], Lookup(cmdline, pids[i]), pids[j], Lookup(cmdline, pids[j]));
    }
  }

  /** The labels of the processes' texts, in observation order. */
  function LabelSeq(ps: seq<Process>, labelOf: string -> string): (ls: seq<string>)
    ensures |ls| == |ps|
    ensures forall i :: 0 <= i < |ps| ==> ls[i] == labelOf(ps[i].command)
  {
    seq(|ps|, i requires 0 <= i < |ps| => labelOf(ps[i].command))
  }

  /** The elements of ls, each once, in the order they first occur. */
  function FirstOccurrences(ls: seq<string>): (r: seq<string>)
    ensures forall x :: x in r <==> x in ls
    ensures Distinct(r)
    decreases |ls|
  {
    if |ls| == 0 then []
    else
      var init := FirstOccurrences(ls[..|ls| - 1]);
      assert forall x :: x in ls <==> x in ls[..|ls| - 1] || x == ls[|ls| - 1] by {
        assert ls == ls[..|ls| - 1] + [ls[|ls| - 1]];
      }
      if ls[|ls| - 1] in init then init else init + [ls[|ls| - 1]]
  }

  /** `new_labels` keeps each label at the place it was first assigned:
      its keys are the labels of the observed texts in order of first
      occurrence, whichever process is finally stored under each. */
  lemma {:induction false} NewLabelsOrder(ps: seq<Process>, labelOf: string -> string, n: nat)
    requires n <= |ps|
    ensures Keys(LabelsUpTo(ps, labelOf, n)) == FirstOccurrences(LabelSeq(ps, labelOf)[..n])
  {
    if n > 0 {
      var ls := LabelSeq(ps, labelOf);
      NewLabelsOrder(ps, labelOf, n - 1);
      assert ls[..n][..n - 1] == ls[..n - 1];
      PutKeys(LabelsUpTo(ps, labelOf, n - 1), labelOf(ps[n - 1].command), ps[n - 1]);
    }
  }
}

=== FILE: ordering.dfy ===
/** Python's ordering of `str` values: lexicographic by code point, a
    proper prefix sorting before the longer string. */
module Ordering {

  /** a < b as Python compares strings. */
  predicate Below(a: string, b: string)
    decreases |a|
  {
    |b| > 0 && (|a| == 0 || a[0] < b[0] || (a[0] == b[0] && Below(a[1..], b[1..])))
  }

  lemma {:induction false} BelowIrreflexive(a: string)
    ensures !Below(a, a)
    decreases |a|
  {
    if |a| > 0 {
      BelowIrreflexive(a[1..]);
    }
  }

  lemma {:induction false} BelowTransitive(a: string, b: string, c: string)
    requires Below(a, b) && Below(b, c)
    ensures Below(a, c)
    decreases |a|
  {
    if |a| > 0 && a[0] == b[0] && b[0] == c[0] {
      BelowTransitive(a[1..], b[1..], c[1..]);
    }
  }

  lemma {:induction false} BelowTotal(a: string, b: string)
    ensures a == b || Below(a, b) || Below(b, a)
    decreases |a|
  {
    if |a| > 0 && |b| > 0 && a[0] == b[0] {
      BelowTotal(a[1..], b[1..]);
      if a[1..] == b[1..] {
        assert a == [a[0]] + a[1..] && b == [b[0]] + b[1..];
      }
    }
  }

  /** Strictly ascending in Python's string order. */
  ghost predicate Ascending(ks: seq<string>)
  {
    forall i, j :: 0 <= i < j < |ks| ==> Below(ks[i], ks[j])
  }

  /** An ascending sequence holds no key twice. */
  lemma AscendingIsDistinct(ks: seq<string>)
    requires Ascending(ks)
    ensures forall i, j :: 0 <= i < j < |ks| ==> ks[i] != ks[j]
  {
    forall i, j | 0 <= i < j < |ks|
      ensures ks[i] != ks[j]
    {
      BelowIrreflexive(ks[i]);
    }
  }

  /** A key below every key of an ascending sequence can go in front of it. */
  lemma ConsAscending(x: string, ks: seq<string>)
    requires Ascending(ks)
    requires forall i :: 0 <= i < |ks| ==> Below(x, ks[i])
    ensures Ascending([x] + ks)
  {
    var r := [x] + ks;
    forall i, j | 0 <= i < j < |r|
      ensures Below(r[i], r[j])
    {
      if i > 0 {
        assert r[i] == ks[i - 1] && r[j] == ks[j - 1];
      }
    }
  }

  /** A key below the first key of an ascending sequence can go in front
      of it. */
  lemma ConsAscendingHead(x: string, ks: seq<string>)
    requires Ascending(ks)
    requires |ks| > 0 ==> Below(x, ks[0])
    ensures Ascending([x] + ks)
  {
    forall j | 0 <= j < |ks|
      ensures Below(x, ks[j])
    {
      if j > 0 {
        BelowTransitive(x, ks[0], ks[j]);
      }
    }
    ConsAscending(x, ks);
  }
}

=== FILE: plugin.dfy ===
/** One run of the plugin (fdcount.py `munin_print` and `main`): observe
    the matching processes, merge them into the saved state, save it, and
    answer Munin's `config` or fetch request. */
module Plugin {

  import opened Wrappers
  import opened Text
  import opened Ordering
  import opened Dict
  import opened Matcher
  import opened Observation
  import opened State
  import opened Report

  /** `configure()`: the target executable, whether it is matched by full
      path, and whether processes are told apart by pid. */
  datatype Settings = Settings(target: string, strict: bool, trackPids: bool)

  /** What one run reads from /proc. */
  datatype ProcFs = ProcFs(
    pids: seq<nat>,             // pids of the /proc/<pid>/exe entries, in listing order
    exe: map<nat, string>,      // targets of the exe links that can be read
    cmdline: map<nat, string>,  // contents of the cmdline files that can be read
    listing: map<nat, nat>)     // entry counts of the fd directories that can be listed

  /** What a run of `munin_print` leaves behind: the state file it wrote
      and either the lines it prints or the error it raises. */
  datatype Run = Run(written: StateFile, response: Result<seq<string>, string>)

  /** The matching processes, described, in /proc order. */
  function Observed(settings: Settings, fs: ProcFs): seq<Process>
  {
    Observe(FindProcesses(fs.pids, fs.exe, settings.target, settings.strict), fs.cmdline, settings.trackPids)
  }

  /** `new_labels` of this run. */
  function Current(settings: Settings, fs: ProcFs, labelOf: string -> string): Dict<Process>
  {
    NewLabels(Observed(settings, fs), labelOf)
  }

  /** The body of `munin_print` once the previous labels are known. */
  function Respond(action: Option<string>, settings: Settings, fs: ProcFs, prior: Dict<Process>,
                   labelOf: string -> string): Run
  {
    var current := Current(settings, fs, labelOf);
    var labels := Merge(prior, current);
    var written := Persist(labels);
    if action == Some("config") then
      Run(written, Success(ConfigLines(settings.target, labels)))
    else if action.None? then
      Run(written, Success(FetchLines(prior, current, fs.listing)))
    else
      Run(written, Failure("invalid action: " + action.value))
  }

  /** `munin_print`, reading an unusable state file as no history. The
      state is saved whatever the action: it holds every label of the
      previous run and every label of this run, the fresh process winning.
      Only an action other than `config` or none is an error. A `config`
      answer has a header and two lines per saved label; a fetch answer
      has one line per saved label. */
  function MuninPrint(action: Option<string>, settings: Settings, fs: ProcFs, stored: StateFile,
                      labelOf: string -> string): (r: Run)
    ensures r.written.Object? && r.written.labels.Entries?
    ensures Ascending(Keys(OldLabels(r.written)))
    ensures ToMap(OldLabels(r.written)) == ToMap(OldLabels(stored)) + ToMap(Current(settings, fs, labelOf))
    ensures r.response.Failure? <==> action.Some? && action.value != "config"
    ensures r.response.Failure? ==> r.response.error == "invalid action: " + action.value
    ensures action == Some("config") ==> |r.response.value| == 3 + 2 * |ToMap(OldLabels(r.written))|
    ensures action.None? ==> |r.response.value| == |ToMap(OldLabels(r.written))|
  {
    var prior, current := OldLabels(stored), Current(settings, fs, labelOf);
    var labels := Merge(prior, current);
    ToMapSize(labels);
    FetchCoversMergedLabels(prior, current, fs.listing);
    SameElementsSameLength(EntryLabels(FetchEntries(prior, current, fs.listing)), Keys(labels));
    Respond(action, settings, fs, prior, labelOf)
  }

  /** `munin_print` as written: a state file whose top level or `labels`
      member is not an object raises before anything is saved. */
  function MuninPrintAsWritten(action: Option<string>, settings: Settings, fs: ProcFs, stored: StateFile,
                               labelOf: string -> string): (r: Result<Run, string>)
    ensures r.Failure? <==> stored.NotAMapping? || (stored.Object? && stored.labels.NotAnObject?)
    ensures r.Success? ==> r.value == MuninPrint(action, settings, fs, stored, labelOf)
  {
    match ReadLabelsAsWritten(stored)
    case Failure(e) => Failure(e)
    case Success(prior) => Success(Respond(action, settings, fs, prior, labelOf))
  }

  /** Running a fetch a second time over the same processes saves exactly
      the state the first run saved. */
  lemma FetchTwiceIsStable(settings: Settings, fs: ProcFs, stored: StateFile, labelOf: string -> string)
    ensures var first := MuninPrint(None, settings, fs, stored, labelOf);
            MuninPrint(None, settings, fs, first.written, labelOf).written == first.written
  {
    var current := Current(settings, fs, labelOf);
    var labels := Merge(OldLabels(stored), current);
    var sorted := SortByKey(labels);
    ToMapFacts(current);
    UpdatePresent(sorted, current);
    SortAscendingIsIdentity(sorted);
  }

  /** The command-line arguments after the program name, read as an
      action: none is a fetch, `config` is a config request, and anything
      else is a usage error naming the arguments. */
  function Dispatch(args: seq<string>): (r: Result<Option<string>, string>)
    ensures r.Success? <==> |args| == 0 || args[0] == "config"
    ensures r.Success? ==> (r.value.None? <==> |args| == 0) && (r.value.Some? ==> r.value.value == "config")
    ensures r.Failure? ==> r.error == "invalid arguments: " + Join(args, " ")
  {
    if |args| == 0 then Success(None)
    else if args[0] == "config" then Success(Some("config"))
    else Failure("invalid arguments: " + Join(args, " "))
  }

  /** What an invocation of the program leaves behind: the state file it
      wrote, if any, and the lines it prints or the error it raises. */
  datatype Invocation = Invocation(written: Option<StateFile>, response: Result<seq<string>, string>)

  /** `main`: a usage error writes nothing; otherwise the state is saved,
      and since `main` passes `munin_print` only a valid action, the run
      never fails. */
  function Main(args: seq<string>, settings: Settings, fs: ProcFs, stored: StateFile,
                labelOf: string -> string): (inv: Invocation)
    ensures inv.written.Some? <==> |args| == 0 || args[0] == "config"
    ensures inv.response.Failure? <==> inv.written.None?
    ensures inv.response.Failure? ==> inv.response.error == "invalid arguments: " + Join(args, " ")
    ensures inv.written.Some? ==>
              ToMap(OldLabels(inv.written.value)) == ToMap(OldLabels(stored)) + ToMap(Current(settings, fs, labelOf))
  {
    match Dispatch(args)
    case Failure(e) => Invocation(None, Failure(e))
    case Success(action) =>
      var run := MuninPrint(action, settings, fs, stored, labelOf);
      Invocation(Some(run.written), run.response)
  }

  /** `main` as written: as `Main`, except that a state file whose top
      level or `labels` member is not an object makes every valid
      invocation raise without writing anything. */
  function MainAsWritten(args: seq<string>, settings: Settings, fs: ProcFs, stored: StateFile,
                         labelOf: string -> string): (inv: Invocation)
    ensures Dispatch(args).Success? && ReadLabelsAsWritten(stored).Failure? ==>
              inv.written.None? && inv.response.Failure?
    ensures !(Dispatch(args).Success? && ReadLabelsAsWritten(stored).Failure?) ==>
              inv == Main(args, settings, fs, stored, labelOf)
  {
    match Dispatch(args)
    case Failure(e) => Invocation(None, Failure(e))
    case Success(action) =>
      match MuninPrintAsWritten(action, settings, fs, stored, labelOf)
      case Failure(e) => Invocation(None, Failure(e))
      case Success(run) => Invocation(Some(run.written), run.response)
  }

  /** The state file after one invocation; `asWritten` selects the code
      as written or the corrected reading of the state. */
  function Step(stored: StateFile, args: seq<string>, fs: ProcFs, settings: Settings,
                labelOf: string -> string, asWritten: bool): StateFile
  {
    var inv := if asWritten then MainAsWritten(args, settings, fs, stored, labelOf)
               else Main(args, settings, fs, stored, labelOf);
    if inv.written.Some? then inv.written.value else stored
  }

  /** The state file after a series of invocations, each with its own
      arguments and /proc contents. */
  function FileAfter(stored: StateFile, runs: seq<(seq<string>, ProcFs)>, settings: Settings,
                     labelOf: string -> string, asWritten: bool): StateFile
    decreases |runs|
  {
    if |runs| == 0 then stored
    else FileAfter(Step(stored, runs[0].0, runs[0].1, settings, labelOf, asWritten), runs[1..], settings, labelOf, asWritten)
  }

  /** As written, a state file whose top level or `labels` member is not
      an object is never replaced: every later invocation fails on it. */
  lemma {:induction false} AsWrittenCorruptionIsPermanent(stored: StateFile, runs: seq<(seq<string>, ProcFs)>,
                                                          settings: Settings, labelOf: string -> string)
    requires ReadLabelsAsWritten(stored).Failure?
    ensures FileAfter(stored, runs, settings, labelOf, true) == stored
    decreases |runs|
  {
    if |runs| > 0 {
      assert Step(stored, runs[0].0, runs[0].1, settings, labelOf, true) == stored;
      AsWrittenCorruptionIsPermanent(stored, runs[1..], settings, labelOf);
    }
  }

  /** A concrete instance: a state file holding `{"labels": []}` makes a
      fetch raise, while the corrected run answers it. */
  lemma AsWrittenFetchFailsOnListLabels(settings: Settings, fs: ProcFs, labelOf: string -> string)
    ensures MainAsWritten([], settings, fs, Object(NotAnObject), labelOf).response.Failure?
    ensures Main([], settings, fs, Object(NotAnObject), labelOf).response.Success?
  {
  }

  /** With the corrected reading, a valid invocation leaves a state file
      that holds labels, and an invalid one leaves the file as it was. */
  lemma StepWritesLabels(stored: StateFile, args: seq<string>, fs: ProcFs, settings: Settings,
                         labelOf: string -> string)
    ensures Dispatch(args).Success? ==>
              var f := Step(stored, args, fs, settings, labelOf, false); f.Object? && f.labels.Entries?
    ensures Dispatch(args).Failure? ==> Step(stored, args, fs, settings, labelOf, false) == stored
  {
  }

  /** With the corrected reading, a state file that holds labels keeps
      holding labels. */
  lemma {:induction false} ReadableStaysReadable(stored: StateFile, runs: seq<(seq<string>, ProcFs)>,
                                                 settings: Settings, labelOf: string -> string)
    requires stored.Object? && stored.labels.Entries?
    ensures var f := FileAfter(stored, runs, settings, labelOf, false); f.Object? && f.labels.Entries?
    decreases |runs|
  {
    if |runs| > 0 {
      StepWritesLabels(stored, runs[0].0, runs[0].1, settings, labelOf);
      ReadableStaysReadable(Step(stored, runs[0].0, runs[0].1, settings, labelOf, false), runs[1..], settings, labelOf);
    }
  }

  /** With the corrected reading, one valid invocation (the i-th)
      replaces any state file by one that holds labels, and every later
      invocation keeps it so. */
  lemma {:induction false} LabelsAfterValidRun(stored: StateFile, runs: seq<(seq<string>, ProcFs)>,
                                               i: nat, settings: Settings, labelOf: string -> string)
    requires i < |runs| && Dispatch(runs[i].0).Success?
    ensures var f := FileAfter(stored, runs, settings, labelOf, false); f.Object? && f.labels.Entries?
    decreases i
  {
    var next := Step(stored, runs[0].0, runs[0].1, settings, labelOf, false);
    assert FileAfter(stored, runs, settings, labelOf, false) == FileAfter(next, runs[1..], settings, labelOf, false);
    if i == 0 {
      StepWritesLabels(stored, runs[0].0, runs[0].1, settings, labelOf);
      ReadableStaysReadable(next, runs[1..], settings, labelOf);
    } else {
      assert runs[1..][i - 1] == runs[i];
      LabelsAfterValidRun(next, runs[1..], i - 1, settings, labelOf);
    }
  }

  /** So with the corrected reading, after one valid invocation even the
      code as written can read the state file. */
  lemma CorrectedStateIsReadableAfterValidRun(stored: StateFile, runs: seq<(seq<string>, ProcFs)>,
                                              i: nat, settings: Settings, labelOf: string -> string)
    requires i < |runs| && Dispatch(runs[i].0).Success?
    ensures ReadLabelsAsWritten(FileAfter(stored, runs, settings, labelOf, false)).Success?
  {
    LabelsAfterValidRun(stored, runs, i, settings, labelOf);
  }

  /** The bash-and-sh process table of the scenarios below. */
  function TwoShells(cmdline: map<nat, string>, n: nat): ProcFs
  {
    ProcFs([10, 20], map[10 := "/usr/bin/bash", 20 := "/usr/bin/sh"], cmdline, map[10 := n])
  }

  /** In the bash-and-sh table, only pid 10 runs the loose target `bash`. */
  lemma OnlyBashMatches(cmdline: map<nat, string>, n: nat)
    ensures FindProcesses(TwoShells(cmdline, n).pids, TwoShells(cmdline, n).exe, "bash", false) == [10]
  {
    var exe := TwoShells(cmdline, n).exe;
    BasenameIs("/usr/bin/bash", "bash");
    BasenameIs("/usr/bin/sh", "bash");
    assert "/usr/bin/bash" == "/usr/bin" + "/bash";
    assert FindProcesses([10], exe, "bash", false) == [10];
    assert FindProcesses([20], exe, "bash", false) == [];
    assert [10, 20] == [10] + [20];
    FindProcessesAppend([10], [20], exe, "bash", false);
  }

  /** The observation of a single process is that process under its label. */
  lemma SingleObservation(p: Process, labelOf: string -> string)
    ensures NewLabels([p], labelOf) == [(labelOf(p.command), p)]
  {
    assert LabelsUpTo([p], labelOf, 0) == [];
    var empty: Dict<Process> := [];
    assert Find(empty, labelOf(p.command)).None?;
  }

  /** In the bash-and-sh table, the fresh observation is pid 10 alone. */
  lemma TwoShellsObservation(labelOf: string -> string, cmdline: map<nat, string>, n: nat)
    ensures var p := Process(10, Describe(10, Lookup(cmdline, 10), false));
            Current(Settings("bash", false, false), TwoShells(cmdline, n), labelOf) == [(labelOf(p.command), p)]
  {
    var p := Process(10, Describe(10, Lookup(cmdline, 10), false));
    OnlyBashMatches(cmdline, n);
    assert Observed(Settings("bash", false, false), TwoShells(cmdline, n)) == [p];
    SingleObservation(p, labelOf);
  }

  /** A fetch with no history and a single fresh label is one value line. */
  lemma FetchOfSingleLabel(key: string, p: Process, listing: map<nat, nat>)
    ensures FetchLines([], [(key, p)], listing) == ["fd_" + key + ".value " + ValueText(CountFds(p.pid, listing))]
  {
    var es := FetchEntries([], [(key, p)], listing);
    assert es == [Entry(key, CountFds(p.pid, listing))];
    assert FetchLines([], [(key, p)], listing) == [FetchLine(es[0])];
  }

  /** A fetch with a single label of history and nothing fresh is one `U` line. */
  lemma FetchOfSingleVanished(key: string, p: Process, listing: map<nat, nat>)
    ensures FetchLines([(key, p)], [], listing) == ["fd_" + key + ".value U"]
  {
    var es := FetchEntries([(key, p)], [], listing);
    assert Vanished([(key, p)], []) == [Entry(key, Undefined)];
    assert es == [Entry(key, Undefined)];
    assert FetchLine(es[0]) == "fd_" + key + ".value U";
    assert FetchLines([(key, p)], [], listing) == [FetchLine(es[0])];
  }

  /** Two processes, bash as pid 10 and sh as pid 20, with bash as the
      loose target: a first fetch reports pid 10's descriptor count under
      the label of its text, and nothing for pid 20. */
  lemma FetchReportsOnlyTheTarget(labelOf: string -> string, cmdline: map<nat, string>, n: nat)
    ensures var text := Describe(10, Lookup(cmdline, 10), false);
            MuninPrint(None, Settings("bash", false, false), TwoShells(cmdline, n), Unreadable, labelOf).response ==
              Success(["fd_" + labelOf(text) + ".value " + Decimal(n)])
  {
    var p := Process(10, Describe(10, Lookup(cmdline, 10), false));
    TwoShellsObservation(labelOf, cmdline, n);
    FetchOfSingleLabel(labelOf(p.command), p, map[10 := n]);
  }

  /** With no history, a single fresh label is saved as it is. */
  lemma SaveSingle(key: string, p: Process)
    ensures OldLabels(Persist(Merge([], [(key, p)]))) == [(key, p)]
  {
    var empty: Dict<Process> := [];
    var single: Dict<Process> := [(key, p)];
    assert Put(empty, key, p) == single by {
      assert Find(empty, key).None?;
    }
    assert single[1..] == [];
    assert Update(empty, single) == Update(single, []);
    assert SortByKey(single) == single;
  }

  /** A first run over the bash-and-sh table saves pid 10 alone. */
  lemma TwoShellsSaved(action: Option<string>, labelOf: string -> string, cmdline: map<nat, string>, n: nat)
    ensures var p := Process(10, Describe(10, Lookup(cmdline, 10), false));
            var first := MuninPrint(action, Settings("bash", false, false), TwoShells(cmdline, n), Unreadable, labelOf);
            OldLabels(first.written) == [(labelOf(p.command), p)]
  {
    var settings, fs := Settings("bash", false, false), TwoShells(cmdline, n);
    var p := Process(10, Describe(10, Lookup(cmdline, 10), false));
    TwoShellsObservation(labelOf, cmdline, n);
    SaveSingle(labelOf(p.command), p);
    assert MuninPrint(action, settings, fs, Unreadable, labelOf).written == Persist(Merge([], Current(settings, fs, labelOf)));
  }

  /** Once bash has exited, nothing matches it. */
  lemma NoBashLeft(labelOf: string -> string, cmdline: map<nat, string>)
    ensures Current(Settings("bash", false, false), ProcFs([20], map[20 := "/usr/bin/sh"], cmdline, map[]), labelOf) == []
  {
    BasenameIs("/usr/bin/sh", "bash");
    assert FindProcesses([20], map[20 := "/usr/bin/sh"], "bash", false) == [];
  }

  /** The same two processes, after bash has exited: a fetch over the
      state the first run saved reports the bash label as `U`. */
  lemma FetchReportsVanishedAsUndefined(labelOf: string -> string, cmdline: map<nat, string>, n: nat)
    ensures var settings := Settings("bash", false, false);
            var after := ProcFs([20], map[20 := "/usr/bin/sh"], cmdline, map[]);
            var first := MuninPrint(None, settings, TwoShells(cmdline, n), Unreadable, labelOf);
            var text := Describe(10, Lookup(cmdline, 10), false);
            MuninPrint(None, settings, after, first.written, labelOf).response ==
              Success(["fd_" + labelOf(text) + ".value U"])
  {
    var p := Process(10, Describe(10, Lookup(cmdline, 10), false));
    TwoShellsSaved(None, labelOf, cmdline, n);
    NoBashLeft(labelOf, cmdline);
    FetchOfSingleVanished(labelOf(p.command), p, map[]);
  }
}

=== FILE: report.dfy ===
/** The lines `munin_print` answers with (fdcount.py): the fetch values,
    one per label, and the graph configuration. The plugin prints each
    response item on its own line; a multi-line template item is given
    here as its separate lines, which prints the same text. */
module Report {

  import opened Wrappers
  import opened Text
  import opened Dict
  import opened Observation
  import State

  /** A value reported to Munin: a descriptor count, or `U` (unknown). */
  datatype FdValue = Count(n: nat) | Undefined

  /** `count_fds`: the number of entries of /proc/<pid>/fd, or `U` when
      the directory cannot be listed. `listing` holds the entry counts of
      the directories that can be listed. */
  function CountFds(pid: nat, listing: map<nat, nat>): (v: FdValue)
    ensures v.Count? <==> pid in listing
    ensures v.Count? ==> v.n == listing[pid]
  {
    match Lookup(listing, pid)
    case Some(n) => Count(n)
    case None => Undefined
  }

  /** The text of a value: a count in decimal, or `U`. */
  function ValueText(v: FdValue): (t: string)
    ensures t == "U" <==> v.Undefined?
    ensures v.Count? ==> AllDigits(t) && DecimalValue(t) == v.n
    ensures v.Count? ==> |t| > 0 && (|t| > 1 ==> t[0] != '0')
  {
    match v
    case Undefined => "U"
    case Count(n) =>
      DecimalRoundTrip(n);
      assert Decimal(n)[0] in "0123456789";
      Decimal(n)
  }

  /** Distinct values have distinct texts: `U` never reads as a count. */
  lemma ValueTextInjective(a: FdValue, b: FdValue)
    ensures ValueText(a) == ValueText(b) ==> a == b
  {
  }

  /** One fetched value: a label and what is reported under it. */
  datatype Entry = Entry(key: string, value: FdValue)

  function EntryLabels(es: seq<Entry>): (ls: seq<string>)
    ensures |ls| == |es|
    ensures forall i :: 0 <= i < |es| ==> ls[i] == es[i].key
  {
    if |es| == 0 then [] else [es[0].key] + EntryLabels(es[1..])
  }

  /** A freshly observed label with the descriptor count of its process. */
  function Measured(current: Dict<Process>, listing: map<nat, nat>): (es: seq<Entry>)
    ensures |es| == |current|
    ensures forall i :: 0 <= i < |current| ==>
              es[i] == Entry(current[i].0, CountFds(current[i].1.pid, listing))
  {
    if |current| == 0 then []
    else [Entry(current[0].0, CountFds(current[0].1.pid, listing))] + Measured(current[1..], listing)
  }

  /** Every label of the previous run that was not observed again, in the
      previous run's order, with the value `U`. */
  function Vanished(prior: seq<(string, Process)>, current: Dict<Process>): (es: seq<Entry>)
    ensures EntryLabels(es) == Without(Keys(prior), Keys(current))
    ensures forall i :: 0 <= i < |es| ==> es[i].value == Undefined
  {
    if |prior| == 0 then []
    else if prior[0].0 in Keys(current) then Vanished(prior[1..], current)
    else
      var rest := Vanished(prior[1..], current);
      assert EntryLabels([Entry(prior[0].0, Undefined)] + rest) == [prior[0].0] + EntryLabels(rest);
      [Entry(prior[0].0, Undefined)] + rest
  }

  /** The values of a fetch: the fresh observation first, then the labels
      that vanished. */
  function FetchEntries(prior: Dict<Process>, current: Dict<Process>, listing: map<nat, nat>): seq<Entry>
  {
    Measured(current, listing) + Vanished(prior, current)
  }

  /** The labels of a fetch: the fresh ones, then the vanished ones. */
  lemma FetchLabels(prior: Dict<Process>, current: Dict<Process>, listing: map<nat, nat>)
    ensures EntryLabels(FetchEntries(prior, current, listing)) ==
              Keys(current) + Without(Keys(prior), Keys(current))
  {
    var measured, vanished := Measured(current, listing), Vanished(prior, current);
    var es := measured + vanished;
    var ls, lm, lv := EntryLabels(es), EntryLabels(measured), EntryLabels(vanished);
    forall i | 0 <= i < |ls|
      ensures ls[i] == (Keys(current) + lv)[i]
    {
      if i < |measured| {
        assert es[i] == measured[i];
      } else {
        assert es[i] == vanished[i - |measured|];
      }
    }
    assert ls == Keys(current) + lv;
  }

  /** Two distinct sequences with no element in common concatenate to a
      distinct sequence. */
  lemma DisjointConcat(a: seq<string>, b: seq<string>)
    requires Distinct(a) && Distinct(b)
    requires forall k :: k in b ==> k !in a
    ensures Distinct(a + b)
  {
    var ab := a + b;
    forall i, j | 0 <= i < j < |ab|
      ensures ab[i] != ab[j]
    {
      if i < |a| <= j {
        assert ab[j] in b;
      } else if |a| <= i {
        assert ab[i] == b[i - |a|] && ab[j] == b[j - |a|];
      }
    }
  }

  /** A fetch reports each label of the merged state, and only those, and
      each exactly once. */
  lemma FetchCoversMergedLabels(prior: Dict<Process>, current: Dict<Process>, listing: map<nat, nat>)
    ensures Distinct(EntryLabels(FetchEntries(prior, current, listing)))
    ensures forall k :: k in EntryLabels(FetchEntries(prior, current, listing)) <==>
              k in Keys(State.Merge(prior, current))
  {
    FetchLabels(prior, current, listing);
    WithoutDistinct(Keys(prior), Keys(current));
    assert Distinct(Keys(current));
    DisjointConcat(Keys(current), Without(Keys(prior), Keys(current)));
  }

  /** A fetch reports the descriptor count of the fresh process for a
      label observed in this run, and `U` for a label known only from the
      previous run. */
  lemma FetchValues(prior: Dict<Process>, current: Dict<Process>, listing: map<nat, nat>)
    ensures forall e :: e in FetchEntries(prior, current, listing) ==> ValueAsObserved(e, current, listing)
  {
    var measured, vanished := Measured(current, listing), Vanished(prior, current);
    ToMapFacts(current);
    forall e: Entry | e in measured
      ensures ValueAsObserved(e, current, listing)
    {
      var i :| 0 <= i < |measured| && measured[i] == e;
    }
    forall e: Entry | e in vanished
      ensures ValueAsObserved(e, current, listing)
    {
      var i :| 0 <= i < |vanished| && vanished[i] == e;
      assert e.key == EntryLabels(vanished)[i];
    }
  }

  /** A fetched value is the count of the fresh process under its label,
      or `U` when no fresh process carries that label. */
  predicate ValueAsObserved(e: Entry, current: Dict<Process>, listing: map<nat, nat>)
  {
    if e.key in ToMap(current)
    then e.value == CountFds(ToMap(current)[e.key].pid, listing)
    else e.value == Undefined
  }

  /** `PROCESS_FETCH`. */
  function FetchLine(e: Entry): string
  {
    "fd_" + e.key + ".value " + ValueText(e.value)
  }

  /** The response to a fetch: a value line for each fresh label, in
      `new_labels` order, with the descriptor count of its process; then a
      `U` line for each old label not observed again, in the old order. */
  function FetchLines(prior: Dict<Process>, current: Dict<Process>, listing: map<nat, nat>): (lines: seq<string>)
    ensures |lines| == |current| + |Without(Keys(prior), Keys(current))|
    ensures forall i :: 0 <= i < |current| ==>
              lines[i] == "fd_" + current[i].0 + ".value " + ValueText(CountFds(current[i].1.pid, listing))
    ensures forall i :: 0 <= i < |lines| - |current| ==>
              lines[|current| + i] == "fd_" + Without(Keys(prior), Keys(current))[i] + ".value U"
  {
    var measured, vanished := Measured(current, listing), Vanished(prior, current);
    var es := FetchEntries(prior, current, listing);
    var lines := seq(|es|, i requires 0 <= i < |es| => FetchLine(es[i]));
    assert |EntryLabels(vanished)| == |vanished|;
    forall i | 0 <= i < |lines| - |current|
      ensures lines[|current| + i] == "fd_" + Without(Keys(prior), Keys(current))[i] + ".value U"
    {
      assert es[|current| + i] == vanished[i];
      assert vanished[i].key == EntryLabels(vanished)[i];
    }
    lines
  }

  /** `CONFIG`: the graph header, titled after the target; the other two
      lines do not depend on it. */
  function Header(target: string): (h: seq<string>)
    ensures |h| == 3
    ensures h[0] == "graph_title Open file descriptors for " + target
    ensures h[1] == "graph_vlabel file descriptors" && h[2] == "graph_category fs"
  {
    ["graph_title Open file descriptors for " + target,
     "graph_vlabel file descriptors",
     "graph_category fs"]
  }

  /** The header tells graphs apart: two targets share a header only when
      they are the same. */
  lemma HeaderIdentifiesTarget(a: string, b: string)
    ensures Header(a) == Header(b) <==> a == b
  {
    var prefix := "graph_title Open file descriptors for ";
    if Header(a) == Header(b) {
      assert a == (prefix + a)[|prefix|..];
      assert b == (prefix + b)[|prefix|..];
    }
  }

  /** `PROCESS_CONFIG` for each label, in order: the label line naming
      the process's text, then its minimum. */
  function LabelBlocks(labels: seq<(string, Process)>): (lines: seq<string>)
    ensures |lines| == 2 * |labels|
    ensures forall i :: 0 <= i < |labels| ==>
              lines[2 * i] == "fd_" + labels[i].0 + ".label " + labels[i].1.command &&
              lines[2 * i + 1] == "fd_" + labels[i].0 + ".min 0"
  {
    if |labels| == 0 then []
    else
      var k, p := labels[0].0, labels[0].1;
      var rest := LabelBlocks(labels[1..]);
      var lines := ["fd_" + k + ".label " + p.command, "fd_" + k + ".min 0"] + rest;
      forall i | 1 <= i < |labels|
        ensures lines[2 * i] == "fd_" + labels[i].0 + ".label " + labels[i].1.command
        ensures lines[2 * i + 1] == "fd_" + labels[i].0 + ".min 0"
      {
        assert labels[1..][i - 1] == labels[i];
        assert lines[2 * i] == rest[2 * (i - 1)] && lines[2 * i + 1] == rest[2 * (i - 1) + 1];
      }
      lines
  }

  /** The response to `config`: the header, then one block per label. */
  function ConfigLines(target: string, labels: Dict<Process>): (lines: seq<string>)
    ensures |lines| == 3 + 2 * |labels|
    ensures lines[..3] == Header(target)
    ensures forall i :: 0 <= i < |labels| ==>
              lines[3 + 2 * i] == "fd_" + labels[i].0 + ".label " + labels[i].1.command &&
              lines[4 + 2 * i] == "fd_" + labels[i].0 + ".min 0"
  {
    Header(target) + LabelBlocks(labels)
  }
}

=== FILE: state.dfy ===
/** The plugin's state between runs (fdcount.py `munin_state_read`,
    `munin_state_write` and the merge in `munin_print`): the labels seen
    so far, each with the last process observed under it. */
module State {

  import opened Wrappers
  import opened Ordering
  import opened Dict
  import opened Observation

  /** The `labels` member of a state file that parsed to a JSON object. */
  datatype LabelsMember =
    | Absent                          // no `labels` member
    | NotAnObject                     // a list, string, number or null
    | Entries(entries: Dict<Process>) // an object of label -> [pid, command]

  /** What reading the state file yields. */
  datatype StateFile =
    | Unreadable                      // missing, unreadable or not JSON
    | NotAMapping                     // JSON whose top level is not an object
    | Object(labels: LabelsMember)

  /** The labels of the previous run, reading every unusable state as no
      history at all, as `munin_state_read` intends. */
  function OldLabels(f: StateFile): (prior: Dict<Process>)
    ensures f.Object? && f.labels.Entries? ==> prior == f.labels.entries
    ensures !(f.Object? && f.labels.Entries?) ==> prior == []
  {
    if f.Object? && f.labels.Entries? then f.labels.entries else []
  }

  /** The labels of the previous run as fdcount.py:136 computes them: the
      same as `OldLabels`, except that a file whose top level or `labels`
      member is not an object raises (the AttributeError of `.get`,
      `.copy` or `.update`). */
  function ReadLabelsAsWritten(f: StateFile): (r: Result<Dict<Process>, string>)
    ensures r.Failure? <==> f.NotAMapping? || (f.Object? && f.labels.NotAnObject?)
    ensures r.Success? ==> r.value == OldLabels(f)
  {
    match f
    case Unreadable => Success([])
    case NotAMapping => Failure("AttributeError")
    case Object(Absent) => Success([])
    case Object(NotAnObject) => Failure("AttributeError")
    case Object(Entries(d)) => Success(d)
  }

  /** `labels = old_labels.copy(); labels.update(new_labels)`: the labels
      of the previous run with the fresh observation laid over them. The
      fresh process wins on a shared label; every old label is kept; old
      labels keep their place and fresh ones follow in observation order. */
  function Merge(prior: Dict<Process>, current: Dict<Process>): (labels: Dict<Process>)
    ensures ToMap(labels) == ToMap(prior) + ToMap(current)
    ensures ToMap(labels).Keys == ToMap(prior).Keys + ToMap(current).Keys
    ensures forall k :: k in ToMap(current) ==> ToMap(labels)[k] == ToMap(current)[k]
    ensures forall k :: k in ToMap(prior) && k !in ToMap(current) ==> ToMap(labels)[k] == ToMap(prior)[k]
    ensures Keys(labels) == Keys(prior) + Without(Keys(current), Keys(prior))
  {
    Update(prior, current)
  }

  /** Merging the same observation twice is merging it once. */
  lemma MergeIdempotent(prior: Dict<Process>, current: Dict<Process>)
    ensures Merge(Merge(prior, current), current) == Merge(prior, current)
  {
    UpdateIdempotent(prior, current);
  }

  /** `munin_state_write(dict(labels=labels))`: the state file holds the
      merged labels, written with sorted keys; reading it back gives the
      same labels in ascending order. */
  function Persist(labels: Dict<Process>): (f: StateFile)
    ensures f.Object? && f.labels.Entries?
    ensures ToMap(OldLabels(f)) == ToMap(labels)
    ensures Ascending(Keys(OldLabels(f)))
  {
    Object(Entries(SortByKey(labels)))
  }
}

=== FILE: text.dfy ===
/** Character classes, decimal numerals and joining, as Python's str methods
    and `'{}'.format(n)` see them. */
module Text {

  /** Python's `str.isspace`, which is also what `str.strip()` and the
      regular expression class `\s` use: ASCII tab..carriage return, the four
      information separators, space, and the Unicode spaces and separators. */
  predicate IsSpace(c: char)
  {
    || c == ' '
    || ('\t' <= c <= '\r')
    || ('\U{1C}' <= c <= '\U{1F}')
    || c == '\U{85}'
    || c == '\U{A0}'
    || c == '\U{1680}'
    || ('\U{2000}' <= c <= '\U{200A}')
    || c == '\U{2028}'
    || c == '\U{2029}'
    || c == '\U{202F}'
    || c == '\U{205F}'
    || c == '\U{3000}'
  }

  predicate IsDigit(c: char)
  {
    '0' <= c <= '9'
  }

  predicate AllDigits(s: string)
  {
    forall i :: 0 <= i < |s| ==> IsDigit(s[i])
  }

  function DigitChar(d: nat): (c: char)
    requires d < 10
    ensures IsDigit(c)
  {
    (48 + d) as char
  }

  function DigitValue(c: char): (d: nat)
    requires IsDigit(c)
    ensures d < 10
  {
    c as int - 48
  }

  /** The decimal numeral of n, as `str(n)` writes a non-negative int. */
  function Decimal(n: nat): (s: string)
    ensures |s| > 0
    ensures AllDigits(s)
    ensures |s| > 1 ==> s[0] != '0'
  {
    if n < 10 then [DigitChar(n)] else Decimal(n / 10) + [DigitChar(n % 10)]
  }

  /** The number a string of decimal digits denotes. */
  function DecimalValue(s: string): nat
    requires AllDigits(s)
  {
    if |s| == 0 then 0 else 10 * DecimalValue(s[..|s| - 1]) + DigitValue(s[|s| - 1])
  }

  /** Reading back a numeral gives the number it was written from. */
  lemma {:induction false} DecimalRoundTrip(n: nat)
    ensures DecimalValue(Decimal(n)) == n
  {
    if n >= 10 {
      var s := Decimal(n);
      assert s[..|s| - 1] == Decimal(n / 10);
      DecimalRoundTrip(n / 10);
    }
  }

  /** Distinct numbers have distinct numerals. */
  lemma DecimalInjective(m: nat, n: nat)
    ensures Decimal(m) == Decimal(n) ==> m == n
  {
    DecimalRoundTrip(m);
    DecimalRoundTrip(n);
  }

  /** Python's `sep.join(ws)`. */
  function Join(ws: seq<string>, sep: string): string
  {
    if |ws| == 0 then ""
    else if |ws| == 1 then ws[0]
    else ws[0] + sep + Join(ws[1..], sep)
  }

  /** The longest prefix of s made of decimal digits. */
  function DigitPrefix(s: string): (p: string)
    ensures |p| <= |s| && p == s[..|p|]
    ensures AllDigits(p)
    ensures |p| == |s| || !IsDigit(s[|p|])
  {
    if |s| > 0 && IsDigit(s[0]) then [s[0]] + DigitPrefix(s[1..]) else ""
  }

  lemma {:induction false} DigitPrefixOfNumeral(digits: string, rest: string)
    requires AllDigits(digits)
    requires |rest| == 0 || !IsDigit(rest[0])
    ensures DigitPrefix(digits + rest) == digits
  {
    if |digits| > 0 {
      assert (digits + rest)[1..] == digits[1..] + rest;
      DigitPrefixOfNumeral(digits[1..], rest);
    } else {
      assert digits + rest == rest;
    }
  }
}

=== FILE: wrappers.dfy ===
/** Option and Result, the two failure-carrying shapes the plugin's model needs:
    an OS read that may fail, and a run that may raise. */
module Wrappers {

  datatype Option<+T> = None | Some(value: T)

  datatype Result<+R, +E> = Success(value: R) | Failure(error: E)

  /** Lookup in a map that reports a missing key as None, the way the model
      represents a failed read of a per-process file. */
  function Lookup<K, V>(m: map<K, V>, k: K): (r: Option<V>)
    ensures r.Some? <==> k in m
    ensures r.Some? ==> r.value == m[k]
  {
    if k in m then Some(m[k]) else None
  }
}
